=== FILE: README.md ===
# user-service in Dafny

A functional model of the request core of the `user-service` Express application:

- the cache-aside user service (`userService.js`), which sits over a Redis wrapper (`cache.js`) and a Postgres `users` table (`userRepository.js`);
- the five user controllers;
- the request-validation gate;
- the central error handler;
- the span lifecycle of the tracing middleware.

Everything is modelled as immutable data and pure step functions:

- the table is a `map<nat, User>` with a SERIAL counter;
- the Redis client is a key → (JSON text, optional `EX`) map plus its open/closed socket state;
- a span is a record of everything written to it.

Each service call returns an `Outcome`, which holds the new world, the result or the thrown `Error`, and the store and cache commands it issued in order. The controllers and middlewares return a `Reply`: `res.status(..).json(..)` / `send()`, `next()` or `next(err)`. They also return the updated span.

Modules, one file each:

| module | file | models |
|---|---|---|
| `Common`, `Js` | common.dfy | `Option`/`Result`; the JavaScript error value (`message`, optional `status`) and truthiness |
| `Decimal` | decimal.dfy | decimal digit strings, `String(n)` for ids |
| `Records` | records.dfy | the `users` row and the request body fields |
| `UserJson` | userjson.dfy | `JSON.stringify` / `JSON.parse` of a user row |
| `Repository` | repository.dfy | the five SQL statements over the table, with Postgres `int4` parsing of the `:id` text |
| `Cache` | cache.dfy | `set`/`get`/`del`, each a `connect`, one command and a `quit` on one shared client |
| `Service` | service.dfy | `createUser`, `getUser`, `updateUser`, `deleteUser`, `getAllUsers` |
| `Consistency` | consistency.dfy | the cache-aside invariant and its preservation |
| `Span`, `Http` | span.dfy | the span operations used, and the response and reply shapes |
| `ErrorHandler` | errorhandler.dfy | `errorHandler` |
| `Controller` | controller.dfy | the five `UserController` handlers |
| `RequestFlow` | flow.dfy | handler, error handler and store together: what a client sees across requests |
| `Validation` | validation.dfy | the two `express-validator` rules and the final validation function |
| `Tracing` | tracing.dfy | `tracingMiddleware` as a span state machine over setup, `end`, `error` and `finish` |

The invariant (`Consistency.Invariant`) has four parts:

- the table is well formed;
- the Redis socket is closed between requests;
- every cache entry is the JSON of the current table row for its id;
- every key is the canonical `user:<id>`.

Cache calls that fail at the connection are part of the model: each cache step returns the client as it was left. The preservation lemmas show that every request leaves the socket closed. From a closed socket, `Service.UpdateUser` and `Service.DeleteUser` succeed exactly when the table allows it, so no sequence of requests from a closed socket ever reaches such a failure.

The `name` and `email` columns are `VARCHAR(100)` (src/server.js:14-15). Postgres casts the bound parameters to the column type while it plans the statement, so a value too long for its column fails before an id is drawn, and before an update looks for its row.

Route parameters are text (`req.params.id`), and the code builds cache keys from that raw text. Postgres, however, reads `01`, `+1`, ` 1` (a leading space, sent as `%201` and decoded by Express) and `1` as the same id. So the invariant holds for the code as written only when every parameter is in canonical form (`Consistency.AsWrittenRunPreserves`). A key built from the parsed id keeps it for every parameter (`Consistency.RunPreserves`). `Service.Keying` selects between the two key rules (see Findings).

## Model

| member | source | states |
|---|---|---|
| Decimal.NatText | src/services/userService.js:7 | the decimal text of an id used in the cache key is non-empty, all digits, and has no leading zero unless the id is 0 |
| Decimal.DigitsValueOfNatText | src/services/userService.js:7 | reading the digits of an id's text back gives the id |
| Decimal.NatTextInjective | src/services/userService.js:7 | distinct ids have distinct decimal texts |
| Decimal.DigitRunOfAppend | src/utils/cache.js:14 | a number followed by a non-digit is read to exactly its digits |
| UserJson.HexDigitValue | src/utils/cache.js:14 | a `\u00xx` hex digit emitted by `JSON.stringify` is read back by `JSON.parse` as the same value |
| UserJson.EscapeCharParses | src/utils/cache.js:6 | each escaped character of a JSON string reads back as that character |
| UserJson.ParseEscaped | src/utils/cache.js:6 | the string body `JSON.stringify` writes reads back as exactly the original text, up to the closing quote |
| UserJson.ParseNatText | src/utils/cache.js:14 | a JSON number written for an id reads back as that id |
| UserJson.ParseQuote | src/utils/cache.js:14 | a quoted JSON string reads back as the original text and the rest of the input |
| UserJson.DecodeEncodeUser | src/utils/cache.js:6 | `JSON.parse(JSON.stringify(user))` gives back the same user |
| UserJson.EncodeUserNonEmpty | src/utils/cache.js:14 | a stored user is never the empty (falsy) string, so `get` always parses it |
| UserJson.EncodeUserInjective | src/utils/cache.js:6 | distinct users have distinct cache texts |
| Repository.Empty | src/server.js:12-18 | the table as first created is empty and well formed, and its `SERIAL` sequence starts at 1 |
| Repository.ParseInt4 | src/repositories/userRepository.js:12-16 | a parameter Postgres accepts as `integer` lies in the 32-bit range; a rejected one fails with Postgres's syntax or range message quoting the parameter |
| Repository.ReadInt4OfDigits | src/repositories/userRepository.js:12-16 | unsigned digits of an `int4` value followed by whitespace are read as that value |
| Repository.ParseInt4OfDigits | src/repositories/userRepository.js:12-16 | a run of digits with whitespace on either side is read as its value, leading zeros included |
| Repository.ParseInt4OfPadded | src/repositories/userRepository.js:12-16 | an id's decimal text with whitespace on either side is read as that id |
| Repository.ParseInt4OfNatText | src/repositories/userRepository.js:12-16 | the decimal text of any `int4` id is read by Postgres as that id |
| Repository.InsertKeepsValid | src/repositories/userRepository.js:4-10 | inserting a row under the sequence's next id with an unused email keeps ids unique, in range and below the sequence, and emails unique |
| Repository.ReplaceKeepsValid | src/repositories/userRepository.js:18-24 | rewriting a row in place with an email no other row holds keeps the table constraints |
| Repository.VarcharValue | src/server.js:14-15 | a text that fits a `VARCHAR(100)` column is stored as a prefix of at most 100 characters, cut only where the rest is spaces, exactly 100 characters long when cut, and unchanged when it is at most 100 characters |
| Repository.ColumnValues | src/server.js:14-15 | a write fails with "value too long for type character varying(100)" exactly when the name or the email does not fit its column; otherwise it stores each text's first 100 characters (all of it when shorter), and two texts of at most 100 characters are stored as given |
| Repository.Create | src/repositories/userRepository.js:4-10 | the insert fails exactly when a value is too long for its column, the sequence is exhausted, or the stored email is taken; a value too long fails before an id is drawn; otherwise it returns a new row with a fresh id, the stored fields and matching timestamps, and adds only that row; the table stays well formed; a failed insert adds no row |
| Repository.FindById | src/repositories/userRepository.js:12-16 | a bad parameter is an error; otherwise the row exists exactly when the parsed id is in the table, and it is that row |
| Repository.Update | src/repositories/userRepository.js:18-24 | the statement fails exactly when the parameter is not an `int4`, a value is too long for its column (whether or not a row matches), or the row exists and another row holds the stored email, and then the table is unchanged; no match leaves the table unchanged and returns none; a match with fitting values and a free email rewrites only that row's name, email and `updated_at` and returns it |
| Repository.Delete | src/repositories/userRepository.js:26-30 | a bad parameter is an error; no match returns none; a match removes exactly that row and returns it |
| Repository.RowsIn | src/repositories/userRepository.js:32-36 | the listed rows are table rows, and every row with an id in the range is listed |
| Repository.RowsInLength | src/repositories/userRepository.js:32-36 | the listing has one entry per id in the range |
| Repository.FindAllIsTable | src/repositories/userRepository.js:32-36 | for a well-formed table, `findAll` lists exactly the table's rows, each once |
| Cache.Set | src/utils/cache.js:4-8 | a `set` on a closed client succeeds exactly when the expiry is absent or non-negative; it stores the JSON of the value under the key, with an `EX` exactly when the expiry is truthy, and leaves every other key and a closed client; an open socket fails at `connect` with the client unchanged; a rejected `EX` leaves the socket open |
| Cache.Get | src/utils/cache.js:10-15 | an absent key or an empty text gives null; otherwise the result is the parse of the stored text; a closed client is left unchanged |
| Cache.Del | src/utils/cache.js:17-21 | on a closed client the key is removed, every other key is kept and the client is closed again |
| Cache.GetAfterSet | src/utils/cache.js:4-15 | `get(k)` after `set(k, v)` returns `v` |
| Cache.GetAfterDel | src/utils/cache.js:10-21 | `get(k)` after `del(k)` returns null |
| Cache.OtherKeysUntouched | src/utils/cache.js:4-21 | `set` and `del` on one key do not change what `get` returns for any other key |
| Cache.CallsStayBracketed | src/utils/cache.js:4-21 | starting from a closed client, any run of calls with acceptable expiries never meets an open socket at `connect` and leaves the client closed |
| Service.CreateUser | src/services/userService.js:5-8 | inserts first; from a closed client it succeeds exactly when the values fit, the sequence has ids left and the stored email is free; an insert failure is thrown unchanged before any cache call, leaving the cache untouched; an open socket after a successful insert throws the cache's connect error; on success caches the returned row under `user:<id>` with no expiry and returns it |
| Service.GetUser | src/services/userService.js:11-22 | never writes the table; a failing cache read (open socket, or an entry that does not parse) is thrown unchanged after one cache call; a hit returns the cached value after one cache read and nothing else; on a miss, no row throws "User not found" with the world unchanged, a store error propagates, and a found row is cached with expiry 3600 and returned |
| Service.UpdateUser | src/services/userService.js:24-31 | updates the table first; a store error is thrown unchanged; from a closed client it succeeds exactly when the parameter names an existing row, the values fit and no other row holds the stored email; no row (with fitting values) throws "User not found" with the cache untouched; an open socket after the update throws the cache's connect error; a success rewrites that row, caches it with no expiry under the key and returns it; from a closed client any failure leaves the world unchanged |
| Service.DeleteUser | src/services/userService.js:33-42 | deletes from the table first; a store error is thrown unchanged; from a closed client it succeeds exactly when the parameter names an existing row; no row throws "User not found" with the cache untouched; an open socket after the delete throws the cache's connect error; a success removes that row, then the key from the cache, and returns the removed row; from a closed client any failure leaves the world unchanged |
| Service.GetAllUsers | src/services/userService.js:44-46 | touches nothing, issues one table read, and returns exactly the table's rows, one per row |
| Consistency.InitialInvariant | src/services/userService.js:5-46 | an empty table and an empty, closed cache satisfy the invariant |
| Consistency.KeyIdOfParam | src/services/userService.js:12 | the raw key `user:` + parameter names id n exactly when Postgres reads the parameter as the non-negative `int4` n, canonical or not (`user:01` names 1) |
| Consistency.KeyIdOfIdKey | src/services/userService.js:7 | the key of an id names that id |
| Consistency.IdKeyInjective | src/services/userService.js:7 | distinct ids have distinct cache keys |
| Consistency.CanonicalKeyOfParam | src/services/userService.js:12 | with canonical keying, a parameter Postgres reads as a non-negative id maps to that id's key |
| Consistency.Reestablish | src/services/userService.js:5-46 | a change that touches one id's row and only that id's key, and leaves the key matching the row, keeps the invariant |
| Consistency.Unchanged | src/services/userService.js:5-8 | a step that changes neither the rows nor the cache keeps the invariant |
| Consistency.CreatePreserves | src/services/userService.js:5-8 | `createUser` keeps every cache entry equal to its row |
| Consistency.GetPreserves | src/services/userService.js:11-22 | `getUser` with the parsed-id key rule (the corrected half of the first Finding) keeps the invariant |
| Consistency.UpdatePreserves | src/services/userService.js:24-31 | `updateUser` with the parsed-id key rule (the corrected half of the first Finding) keeps the invariant |
| Consistency.DeletePreserves | src/services/userService.js:33-42 | `deleteUser` with the parsed-id key rule (the corrected half of the first Finding) keeps the invariant |
| Consistency.ApplyPreserves | src/services/userService.js:5-46 | with the parsed-id key rule (the corrected half of the first Finding), any one of the five operations keeps the invariant |
| Consistency.RunPreserves | src/services/userService.js:5-46 | with the parsed-id key rule (the corrected half of the first Finding), every sequential run of requests from an invariant state keeps the invariant |
| Consistency.KeyingsAgree | src/services/userService.js:12 | for a canonical parameter, the raw-text key and the parsed-id key coincide |
| Consistency.OutcomesAgree | src/services/userService.js:11-42 | for a canonical parameter, `getUser`, `updateUser` and `deleteUser` give the same result, the same calls and the same state under both key rules |
| Consistency.ApplyAgrees | src/services/userService.js:5-46 | an operation with a canonical parameter leaves the same state under both key rules |
| Consistency.AsWrittenRunPreserves | src/services/userService.js:5-46 | the code as written keeps the invariant over any run whose parameters are all canonical |
| Consistency.ReadsAgreeWithStore | src/services/userService.js:11-22 | under the invariant, `getUser` returns exactly what the table holds for the id, hit or miss |
| Consistency.ReadAfterCreate | src/services/userService.js:5-22 | after a create, reading the new id is served from the cache alone and returns the created row |
| Consistency.ReadAfterUpdate | src/services/userService.js:11-31 | with the parsed-id key rule (the corrected half of the first Finding), after a successful update, reading the same parameter is served from the cache alone and returns the updated row |
| Consistency.ReadAfterDelete | src/services/userService.js:11-42 | with the parsed-id key rule (the corrected half of the first Finding), after a successful delete, reading the same parameter misses the cache and throws "User not found" |
| Consistency.ParamsOfOne | src/repositories/userRepository.js:12-16 | Postgres reads both `01` and `1` as id 1 |
| Consistency.PaddedParamOfOne | src/repositories/userRepository.js:12-16 | Postgres reads ` 1` as id 1, so that parameter is not canonical |
| Consistency.StoreUpdateAs01 | src/repositories/userRepository.js:18-24 | the update of `01` on the one-row table rewrites row 1 with the new name and email |
| Consistency.OnlyRowInvariant | src/services/userService.js:5-46 | a table holding one user under id 1 with an empty, closed cache satisfies the invariant |
| Consistency.ReadAs01Caches | src/services/userService.js:11-22 | reading `01` caches the row under the non-canonical key `user:01`, which still matches the table |
| Consistency.StoreDeleteAs1 | src/repositories/userRepository.js:26-30 | the delete of `1` on the one-row table removes row 1 and returns it |
| Consistency.DeleteAs1MissesEntry | src/services/userService.js:33-42 | deleting `1` removes the row and `user:1` but leaves `user:01` |
| Consistency.StaleReadAs01 | src/services/userService.js:11-15 | the leftover entry is stale, and reading `01` returns the deleted user |
| Consistency.RawKeyServesDeletedUser | src/services/userService.js:11-42 | as written: read `01`, delete `1`, read `01` returns the deleted user |
| Consistency.CanonicalKeyForgetsDeletedUser | src/services/userService.js:11-42 | with the parsed-id key, the same three requests end in "User not found" |
| Consistency.ReadAs1Caches | src/services/userService.js:11-22 | reading `1` caches the row under `user:1` with expiry 3600 |
| Consistency.UpdateAs01Keeps1 | src/services/userService.js:24-31 | updating `01` rewrites row 1 and caches it under `user:01`, leaving `user:1` with the old row |
| Consistency.OldEntryNotCurrent | src/services/userService.js:24-31 | after the update of `01`, the entry left under `user:1` no longer matches row 1 |
| Consistency.StaleReadAs1 | src/services/userService.js:11-15 | the leftover `user:1` entry is stale, and reading `1` returns the row as it was before the update |
| Consistency.RawKeyServesOverwrittenUser | src/services/userService.js:11-31 | as written, with no delete: read `1`, update `01` with a new name, read `1` returns the old row while the table holds the new one |
| Consistency.CanonicalKeyServesUpdatedUser | src/services/userService.js:11-31 | with the parsed-id key, the same three requests succeed, the update returns the rewritten row, and the read returns it |
| Span.MarkFailed | src/controllers/userController.js:26-30 | the catch-block pair sets status ERROR with the error's message and records the exception, changing nothing else |
| ErrorHandler.Handle | src/middlewares/errorHandler.js:5-32 | the status is `err.status` when truthy, else 500; the body message is `err.message` when truthy, else "Internal Server Error"; a present span gets the same status code, status ERROR with the body's message, and the exception appended, with nothing else changed; an absent span stays absent |
| ErrorHandler.ResponseIgnoresSpan | src/middlewares/errorHandler.js:17-31 | the response is the same with or without a span |
| ErrorHandler.NotFoundIs500 | src/middlewares/errorHandler.js:27-31 | as written, the service's "User not found" becomes 500 with that message |
| ErrorHandler.NotFoundWithStatusIs404 | src/middlewares/errorHandler.js:27-31 | a not-found error carrying status 404 becomes 404 with the same message |
| Controller.CreateUser | src/controllers/userController.js:6-33 | adds "User creation started" before the service call; on success sets `app.user.id`, adds "User creation completed" with the id, and replies 201 with the user; on failure forwards the error with the span marked failed; the span's name and end count never change, and its exceptions only on failure |
| Controller.GetUser | src/controllers/userController.js:35-57 | sets `app.user.id` to the parameter before the call, so it is present on failure too; replies with the user at the default status, or forwards the error with the span marked failed; the span's name, end count and events never change, and its exceptions only on failure |
| Controller.UpdateUser | src/controllers/userController.js:59-81 | sets `app.user.id` to the parameter; replies with the updated user at the default status, or forwards the error with the span marked failed; the span's name, end count and events never change, and its exceptions only on failure |
| Controller.DeleteUser | src/controllers/userController.js:83-105 | sets `app.user.id` to the parameter; replies 204 with no body, or forwards the error with the span marked failed; the span's name, end count and events never change, and its exceptions only on failure |
| Controller.GetAllUsers | src/controllers/userController.js:107-128 | replies with the default status and exactly the service's list, in its order; sets `app.users.count` to the list's length and changes nothing else on the span; for a well-formed table that is the number of rows, and the list holds exactly the table's rows |
| RequestFlow.GetAnswersFromStore | src/controllers/userController.js:35-57 | under the invariant, the client of `GET /users/:id` receives the stored row with status 200, a 500 "User not found" when there is no row, and the error handler's response to the store's error otherwise, whatever the cache holds |
| RequestFlow.NotFoundReachesClient | src/controllers/userController.js:35-57 | a read the service answers with "User not found" reaches the client, through the error handler, as a 500 with that message |
| RequestFlow.CreatedUserReadable | src/controllers/userController.js:6-57 | under the invariant, a create answered 201 with a user is followed by a `GET` of its id answered 200 with the same user |
| RequestFlow.UpdatedUserReadable | src/controllers/userController.js:35-81 | under the invariant and for a canonical id, an update answered 200 with a user is followed by a `GET` of the id answered with that same reply |
| RequestFlow.DeletedUserGone | src/controllers/userController.js:35-105 | under the invariant and for a canonical id, a delete answered 204 is followed by a `GET` of the id answered 500 "User not found" |
| Validation.RuleErrors | src/middlewares/validateRequest.js:8-9 | "Name is required" appears exactly for an empty name, and "Valid email is required" exactly for a non-email; there is at most one error per rule, the name rule first; there are no errors exactly when both rules pass |
| Validation.Gate | src/middlewares/validateRequest.js:10-73 | `app.validation.path` is set when a span exists; a thrown error is forwarded with the span marked failed; any failed rule replies 400 with the errors, sets status "Validation failed: " + the joined messages and `app.validation.errors`, and does not call `next`; otherwise `next()` with the "Validation succeeded" event; each branch changes only the span fields it names, the name and end count never, and exceptions only on the thrown path; an absent span stays absent |
| Validation.ReplyIgnoresSpan | src/middlewares/validateRequest.js:18-72 | the reply is the same with or without a span |
| Validation.GateOnRules | src/middlewares/validateRequest.js:8-56 | with no exception, the request passes exactly when the name is non-empty and the email is valid, and is otherwise answered with 400 |
| Validation.BothRulesFailMessage | src/middlewares/validateRequest.js:27-33 | with both rules failing, the span status reads "Validation failed: Name is required, Valid email is required" |
| Tracing.Begin | src/middlewares/tracing.js:4-63 | the span is named method + " " + (route template or path) and carries the method, route, URL and host attributes; normal setup wraps `end`, attaches both listeners, and calls `next()` with no argument; a setup throw marks the span failed, ends it once, and calls `next(error)` |
| Tracing.Step | src/middlewares/tracing.js:26-51 | `end` always reaches the original with its arguments and, when wrapped, sets the status code and ends the span, leaving both listeners; an `error` reaching the one-shot listener marks the span failed, ends it and detaches, and changes nothing else; `finish` detaches both listeners and changes nothing else; events with no listener change nothing |
| Tracing.EndsCountTerminalEvents | src/middlewares/tracing.js:26-51 | the span's end count grows by one per wrapped `end` call, plus one if an error arrives while the listener is attached |
| Tracing.EveryEndForwarded | src/middlewares/tracing.js:26-30 | the original `end` receives exactly the `res.end` calls of the run, in order and with the same arguments, and nothing else, whatever the span and listener state |
| Tracing.RequestEnds | src/middlewares/tracing.js:4-63 | over a whole request, the end count is the number of terminal events that fired: a setup failure, each wrapped `end`, and an error before `finish` |
| Tracing.ErrorThenEndEndsTwice | src/middlewares/tracing.js:28-39 | an `error` event followed by `res.end` ends the span twice |
| Tracing.ErrorsIgnoredWithoutListener | src/middlewares/tracing.js:49-51 | once the error listener is gone, any number of error events changes nothing |
| Tracing.RunAppend | src/middlewares/tracing.js:26-51 | running two event sequences one after the other is the same as running their concatenation |
| Tracing.NormalRequestEndsOnce | src/middlewares/tracing.js:26-51 | `end` then `finish` ends the span once with the status code and leaves its status unset, and later errors change nothing |

## Left out

- Logging (`logger.info` / `logger.error` in every handler) is not modelled: the calls are side effects with no influence on replies or state.
- The network, the Postgres pool and the Redis socket are represented only by their observable results. Connection loss, timeouts and reconnects are not modelled, and neither are the configuration files.
- Concurrency is not modelled. Requests run one after another, and each await is a single atomic step. Interleaved requests can break the cache invariant in ways not covered here.
- Express routing, `helmet`, `cors`, `express.json` and the mounting in `src/app.js` are not modelled. Each handler is applied to an already-routed request. The tracing middleware is not mounted by the application, so it is modelled on its own.
- The OpenTelemetry SDK is represented only by the span record. The SDK drops writes after `end()`; the model records every call instead, which is what lets it count ends. Exporters are not modelled.
- Repository.ParseInt4 treats a NUL character as an ordinary non-digit, giving a syntax error; Postgres rejects such a parameter earlier, as an invalid UTF-8 byte sequence. Whitespace is C's `isspace` in the "C" locale.
- Repository.ParseInt4 follows the `integer` input syntax of PostgreSQL 15 and earlier. It accepts no `_` digit separators and no `0x`/`0o`/`0b` prefixes. PostgreSQL 16 accepts both. The application does not pin a server version.
- Consistency.AsWrittenRunPreserves: its canonical parameters are those of the PostgreSQL 15 syntax. On PostgreSQL 16, spellings such as `0x1` and `1_0` are also read as ids but counted here as canonical, because the model reads them as errors. For these the code as written goes stale just as for `01`, so the lemma does not cover a PostgreSQL 16 server.
- Repository.Create and Repository.Update do not model NOT NULL: the fields are always strings, since a missing field never passes the validation rules. The timestamp is a parameter (`now`) rather than a clock.
- Repository.ColumnValues counts characters as Unicode scalar values, as Postgres does for a UTF-8 database.
- Repository.FindAll returns rows in ascending id order. The SQL has no `ORDER BY`, so this is one admissible order and the contract states only the set of rows and their count.
- UserJson.DecodeUser parses only the object shape `JSON.stringify` writes for a row. Other JSON texts are treated as syntax errors. Surrogate `\u` escapes are not decoded, and dates are kept as their ISO text.
- Cache.Set models `EX` as a stored tag; expiry in time is not modelled. A text stored under a key by some other writer is modelled only as "parses or is a syntax error".
- The value returned by the original `res.end` is not modelled; the calls and their arguments are.
- The `error` event with no listener attached (which Node would throw) is modelled as doing nothing.
- The `express-validator` email syntax is a boolean input (`isEmail`), and the `value`/`location` fields of its error objects are not modelled.
- Where the code departs from what a cache-aside service is expected to do:
  - a cache value that fails to parse is an error, not a miss;
  - "User not found" becomes 500, not 404;
  - the tracing span is not protected against being ended twice.
  The model follows the code on all three.

## Findings

| source | as written | input that shows it | evidently intended | confidence | as-written member | corrected member |
|---|---|---|---|---|---|---|
| src/services/userService.js:12-40 | the cache key is built from the raw route text, while the table reads that text as an integer | GET `/users/01`, then DELETE `/users/1`, then GET `/users/01` | a read after a delete misses the cache and reports "User not found" | not executed | Consistency.RawKeyServesDeletedUser | Consistency.CanonicalKeyForgetsDeletedUser |
| src/services/userService.js:12-29 | the same raw key goes stale without any delete: an update under one spelling caches the new row under its own key and leaves the other | GET `/users/1`, then PUT `/users/01` with a new name, then GET `/users/1` | a read after an update returns the updated row | not executed | Consistency.RawKeyServesOverwrittenUser | Consistency.CanonicalKeyServesUpdatedUser |
| src/services/userService.js:18 | `new Error('User not found')` has no `status`, so the handler answers 500 | GET `/users/999` on a table without id 999 | 404 for a missing user | not executed | ErrorHandler.NotFoundIs500 | ErrorHandler.NotFoundWithStatusIs404 |

The controllers call the service with the key rule as written, so each handler's result is what the code produces. `Consistency.RunPreserves` is stated for the parsed-id key rule, and `Consistency.AsWrittenRunPreserves` for the rule as written over canonical parameters. `Consistency.ReadsAgreeWithStore` holds under either rule. `Consistency.OutcomesAgree` shows that on a canonical parameter the two rules give the same result, calls and state.

=== FILE: cache.dfy ===
/**
 * The cache wrapper: `set`, `get` and `del`, each of which opens the
 * connection, issues one command and quits. The server's key space is a
 * map from key to stored text and expiry; the expiry is a stored tag, with
 * no clock behind it.
 */
module Cache {
  import opened Common
  import opened Js
  import opened Records
  import opened UserJson

  /** A stored value: its text and the `EX` seconds it was written with, if any. */
  datatype Entry = Entry(text: string, expiry: Option<int>)

  /** The client: the server's key space and whether the socket is open. */
  datatype Client = Client(data: map<string, Entry>, open: bool)

  /** What a cache call can throw. */
  datatype CacheError = SocketAlreadyOpen | ClientClosed | InvalidExpireTime | JsonSyntaxError

  /** A call's result together with the client state it leaves, on failure as well as on success. */
  datatype Step<T> = Step(client: Client, result: Result<T, CacheError>)

  const SocketAlreadyOpenMessage: string := "Socket already opened"
  const ClientClosedMessage: string := "The client is closed"
  const InvalidExpireTimeMessage: string := "ERR invalid expire time in 'set' command"
  const JsonSyntaxErrorMessage: string := "Unexpected token in JSON"

  /** The error object a failing cache call throws. */
  function ErrorOf(e: CacheError): Err
  {
    match e
    case SocketAlreadyOpen => Err(SocketAlreadyOpenMessage, None)
    case ClientClosed => Err(ClientClosedMessage, None)
    case InvalidExpireTime => Err(InvalidExpireTimeMessage, None)
    case JsonSyntaxError => Err(JsonSyntaxErrorMessage, None)
  }

  // The client's own commands.

  function Connect(c: Client): Step<()>
  {
    if c.open then Step(c, Failure(SocketAlreadyOpen)) else Step(c.(open := true), Success(()))
  }

  function Quit(c: Client): Step<()>
  {
    if !c.open then Step(c, Failure(ClientClosed)) else Step(c.(open := false), Success(()))
  }

  /** `SET key text [EX seconds]`; a non-positive `EX` is refused by the server. */
  function SetCommand(c: Client, key: string, text: string, ex: Option<int>): Step<()>
  {
    if !c.open then Step(c, Failure(ClientClosed))
    else if ex.Some? && ex.value <= 0 then Step(c, Failure(InvalidExpireTime))
    else Step(c.(data := c.data[key := Entry(text, ex)]), Success(()))
  }

  function GetCommand(c: Client, key: string): Step<Option<string>>
  {
    if !c.open then Step(c, Failure(ClientClosed))
    else if key in c.data then Step(c, Success(Some(c.data[key].text)))
    else Step(c, Success(None))
  }

  function DelCommand(c: Client, key: string): Step<()>
  {
    if !c.open then Step(c, Failure(ClientClosed))
    else Step(c.(data := c.data - {key}), Success(()))
  }

  /** An expiry the wrapper can pass to the server: absent, zero, or positive. */
  predicate Acceptable(expiry: Option<int>) {
    expiry.None? || expiry.value >= 0
  }

  /**
   * `cache.set(key, value, expiry)`: stores the JSON text of `value`, with an
   * `EX` option only when `expiry` is truthy.
   */
  function Set(c: Client, key: string, value: User, expiry: Option<int>): (s: Step<()>)
    ensures s.result.Success? <==> !c.open && Acceptable(expiry)
    ensures s.result.Success? ==>
      && !s.client.open
      && key in s.client.data
      && s.client.data[key].text == EncodeUser(value)
      && (s.client.data[key].expiry.Some? <==> TruthyInt(expiry))
      && (TruthyInt(expiry) ==> s.client.data[key].expiry == expiry)
      && s.client.data - {key} == c.data - {key}
    ensures c.open ==> s == Step(c, Failure(SocketAlreadyOpen))
    ensures !c.open && !Acceptable(expiry) ==> s.client == c.(open := true)
  {
    var conn := Connect(c);
    if conn.result.Failure? then conn
    else
      var written := SetCommand(conn.client, key, EncodeUser(value), if TruthyInt(expiry) then expiry else None);
      if written.result.Failure? then written
      else Quit(written.client)
  }

  /**
   * `cache.get(key)`: `null` when the key is absent (or holds the empty
   * text), otherwise `JSON.parse` of the stored text, which throws after the
   * connection is closed when the text is not a user record.
   */
  function Get(c: Client, key: string): (s: Step<Option<User>>)
    ensures c.open ==> s == Step(c, Failure(SocketAlreadyOpen))
    ensures !c.open ==> s.client == c
    ensures !c.open && (key !in c.data || c.data[key].text == []) ==> s.result == Success(None)
    ensures !c.open && key in c.data && c.data[key].text != [] ==>
      s.result == (match DecodeUser(c.data[key].text)
                   case Some(u) => Success(Some(u))
                   case None => Failure(JsonSyntaxError))
  {
    var conn := Connect(c);
    if conn.result.Failure? then Step(c, Failure(SocketAlreadyOpen))
    else
      var read := GetCommand(conn.client, key);
      var closed := Quit(read.client);
      match read.result.value
      case None => Step(closed.client, Success(None))
      case Some(text) =>
        if text == [] then Step(closed.client, Success(None))
        else match DecodeUser(text)
          case Some(u) => Step(closed.client, Success(Some(u)))
          case None => Step(closed.client, Failure(JsonSyntaxError))
  }

  /** `cache.del(key)`: removes the key; every other key is kept. */
  function Del(c: Client, key: string): (s: Step<()>)
    ensures s.result.Success? <==> !c.open
    ensures !c.open ==> !s.client.open && key !in s.client.data && s.client.data - {key} == c.data - {key}
    ensures c.open ==> s == Step(c, Failure(SocketAlreadyOpen))
  {
    var conn := Connect(c);
    if conn.result.Failure? then conn
    else
      var removed := DelCommand(conn.client, key);
      if removed.result.Failure? then removed
      else Quit(removed.client)
  }

  /** `get` after `set` of the same key reads the value back. */
  lemma GetAfterSet(c: Client, key: string, value: User, expiry: Option<int>)
    requires !c.open && Acceptable(expiry)
    ensures Get(Set(c, key, value, expiry).client, key).result == Success(Some(value))
  {
    var c1 := Set(c, key, value, expiry).client;
    var text := c1.data[key].text;
    assert text == EncodeUser(value);
    EncodeUserNonEmpty(value);
    DecodeEncodeUser(value);
    assert DecodeUser(text) == Some(value);
  }

  /** `get` after `del` of the same key reads `null`. */
  lemma GetAfterDel(c: Client, key: string)
    requires !c.open
    ensures Get(Del(c, key).client, key).result == Success(None)
  {
  }

  /** `set` and `del` of one key leave what `get` reads under any other key unchanged. */
  lemma OtherKeysUntouched(c: Client, key: string, other: string, value: User, expiry: Option<int>)
    requires !c.open && Acceptable(expiry) && other != key
    ensures Get(Set(c, key, value, expiry).client, other).result == Get(c, other).result
    ensures Get(Del(c, key).client, other).result == Get(c, other).result
  {
    var c1 := Set(c, key, value, expiry).client;
    var c2 := Del(c, key).client;
    assert other in c1.data <==> other in c.data by {
      assert other in c1.data <==> other in c1.data - {key};
    }
    assert other in c.data ==> c1.data[other] == c.data[other] by {
      if other in c.data {
        assert other in c1.data - {key};
      }
    }
    assert other in c2.data <==> other in c.data by {
      assert other in c2.data <==> other in c2.data - {key};
    }
    assert other in c.data ==> c2.data[other] == c.data[other] by {
      if other in c.data {
        assert other in c2.data - {key};
      }
    }
  }

  /** One call of the wrapper, as the service issues it. */
  datatype Call = SetCall(key: string, value: User, expiry: Option<int>) | GetCall(key: string) | DelCall(key: string)

  /** The client state after a call, whatever it returned. */
  function After(c: Client, call: Call): Client
  {
    match call
    case SetCall(k, v, e) => Set(c, k, v, e).client
    case GetCall(k) => Get(c, k).client
    case DelCall(k) => Del(c, k).client
  }

  /** Whether the call failed on the connection itself rather than on its command. */
  predicate ConnectionFault(c: Client, call: Call)
  {
    match call
    case SetCall(k, v, e) => Set(c, k, v, e).result == Failure(SocketAlreadyOpen) || Set(c, k, v, e).result == Failure(ClientClosed)
    case GetCall(k) => Get(c, k).result == Failure(SocketAlreadyOpen) || Get(c, k).result == Failure(ClientClosed)
    case DelCall(k) => Del(c, k).result == Failure(SocketAlreadyOpen) || Del(c, k).result == Failure(ClientClosed)
  }

  function RunCalls(c: Client, calls: seq<Call>): Client
    decreases |calls|
  {
    if |calls| == 0 then c else RunCalls(After(c, calls[0]), calls[1..])
  }

  /**
   * Because every call quits after its command, a run of calls that starts
   * on a closed client never fails on the connection and ends closed again,
   * provided no `set` is given a negative expiry.
   */
  lemma {:induction false} CallsStayBracketed(c: Client, calls: seq<Call>)
    requires !c.open
    requires forall i :: 0 <= i < |calls| && calls[i].SetCall? ==> Acceptable(calls[i].expiry)
    ensures !RunCalls(c, calls).open
    ensures forall i :: 0 <= i < |calls| ==> !ConnectionFault(RunCalls(c, calls[..i]), calls[i])
    decreases |calls|
  {
    if |calls| > 0 {
      var c1 := After(c, calls[0]);
      assert !c1.open;
      CallsStayBracketed(c1, calls[1..]);
      forall i | 0 <= i < |calls|
        ensures !ConnectionFault(RunCalls(c, calls[..i]), calls[i])
      {
        if i > 0 {
          assert calls[..i][1..] == calls[1..][..i - 1];
          assert calls[i] == calls[1..][i - 1];
        }
      }
    }
  }
}

=== FILE: common.dfy ===
/**
 * The outcomes of the user service's store and cache calls: a value that
 * may be JavaScript's `null`, and a value or the `Error` a call throws.
 */
module Common {

  /** An optional value; `None` stands for JavaScript's `null`/`undefined`. */
  datatype Option<+T> = None | Some(value: T) {
    predicate IsFailure() { None? }

    function PropagateFailure<U>(): Option<U>
      requires None?
    {
      None
    }

    function Extract(): T
      requires Some?
    {
      value
    }
  }

  /** The outcome of a call that either returns a value or throws an error. */
  datatype Result<+R, +E> = Success(value: R) | Failure(error: E) {
    predicate IsFailure() { Failure? }

    function PropagateFailure<U>(): Result<U, E>
      requires Failure?
    {
      Failure(error)
    }

    function Extract(): R
      requires Success?
    {
      value
    }
  }
}

/** The few JavaScript values the core passes around. */
module Js {
  import opened Common

  /** A thrown `Error`: its `message` and its optional numeric `status` field. */
  datatype Err = Err(message: string, status: Option<int>)

  /** JavaScript truthiness of an optional number (`undefined` and `0` are falsy). */
  predicate TruthyInt(n: Option<int>) {
    n.Some? && n.value != 0
  }

  /** JavaScript truthiness of a string (only the empty string is falsy). */
  predicate TruthyString(s: string) {
    s != ""
  }
}

=== FILE: consistency.dfy ===
/**
 * The cache-aside invariant: every cache entry holds the store's current
 * row for the id its key names. Writes go to the store first and the cache
 * is updated or invalidated only after the store call succeeds; the
 * lemmas below show which operations keep the invariant, and which
 * keying of route parameters is needed for that.
 */
module Consistency {
  import opened Common
  import opened Decimal
  import opened Records
  import opened UserJson
  import Repository
  import Cache
  import opened Service

  /** The id the store would read from a cache key `user:<text>`, if it reads a row id at all. */
  function KeyId(k: string): Option<nat>
  {
    if |k| >= 5 && k[..5] == "user:" then
      match Repository.ParseInt4(k[5..])
      case Success(n) => if n >= 0 then Some(n) else None
      case Failure(_) => None
    else None
  }

  /** The entry under `k` is the JSON text of the store's row for the id `k` names. */
  ghost predicate Current(db: Repository.Store, k: string, e: Cache.Entry)
  {
    KeyId(k).Some? && KeyId(k).value in db.rows && e.text == EncodeUser(db.rows[KeyId(k).value])
  }

  /** No cache entry is stale. */
  ghost predicate Consistent(w: World)
  {
    forall k :: k in w.cache.data ==> Current(w.db, k, w.cache.data[k])
  }

  /** Every cache key is `user:` followed by the id as JavaScript prints it. */
  ghost predicate CanonicalKeys(w: World)
  {
    forall k :: k in w.cache.data ==> KeyId(k).Some? && k == IdKey(KeyId(k).value)
  }

  /** The state between requests: valid table, closed cache connection, fresh canonical entries. */
  ghost predicate Invariant(w: World)
  {
    Repository.Valid(w.db) && !w.cache.open && Consistent(w) && CanonicalKeys(w)
  }

  /** An empty table and an empty cache satisfy the invariant. */
  lemma InitialInvariant()
    ensures Invariant(World(Repository.Empty(), Cache.Client(map[], false)))
  {
  }

  lemma KeyIdOfParam(p: string)
    ensures KeyId("user:" + p) ==
      (match Repository.ParseInt4(p)
       case Success(n) => if n >= 0 then Some(n) else None
       case Failure(_) => None)
  {
    assert ("user:" + p)[..5] == "user:";
    assert ("user:" + p)[5..] == p;
  }

  lemma KeyIdOfIdKey(n: nat)
    requires n <= Repository.MaxInt4
    ensures KeyId(IdKey(n)) == Some(n)
  {
    KeyIdOfParam(NatText(n));
    Repository.ParseInt4OfNatText(n);
  }

  lemma IdKeyInjective(m: nat, n: nat)
    requires IdKey(m) == IdKey(n)
    ensures m == n
  {
    assert IdKey(m)[5..] == NatText(m);
    assert IdKey(n)[5..] == NatText(n);
    NatTextInjective(m, n);
  }

  /** The canonical key of a parameter names a row id exactly when the store reads one from it. */
  lemma CanonicalKeyOfParam(p: string)
    ensures var k := KeyFor(Canonical, p);
      && (KeyId(k).Some? <==> Repository.ParseInt4(p).Success? && Repository.ParseInt4(p).value >= 0)
      && (KeyId(k).Some? ==> KeyId(k).value == Repository.ParseInt4(p).value && k == IdKey(KeyId(k).value))
  {
    match Repository.ParseInt4(p)
    case Success(n) =>
      if n >= 0 {
        KeyIdOfIdKey(n);
      } else {
        KeyIdOfParam(p);
      }
    case Failure(_) =>
      KeyIdOfParam(p);
  }

  /**
   * The frame argument every write shares: when only row `n` and only key
   * `IdKey(n)` changed, and that key (if present) holds row `n`, the
   * invariant carries over.
   */
  lemma Reestablish(w: World, w2: World, n: nat)
    requires Invariant(w)
    requires Repository.Valid(w2.db) && !w2.cache.open
    requires n <= Repository.MaxInt4
    requires forall m :: m != n ==> (m in w2.db.rows <==> m in w.db.rows)
    requires forall m :: m != n && m in w.db.rows ==> w2.db.rows[m] == w.db.rows[m]
    requires w2.cache.data - {IdKey(n)} == w.cache.data - {IdKey(n)}
    requires IdKey(n) in w2.cache.data ==> n in w2.db.rows && w2.cache.data[IdKey(n)].text == EncodeUser(w2.db.rows[n])
    ensures Invariant(w2)
  {
    KeyIdOfIdKey(n);
    forall k | k in w2.cache.data
      ensures Current(w2.db, k, w2.cache.data[k]) && KeyId(k).Some? && k == IdKey(KeyId(k).value)
    {
      if k != IdKey(n) {
        assert k in w2.cache.data - {IdKey(n)};
        assert k in w.cache.data && w2.cache.data[k] == w.cache.data[k];
        var m := KeyId(k).value;
        assert m != n;
      }
    }
  }

  /** A failed call that touched neither the rows nor the cache keeps the invariant. */
  lemma Unchanged(w: World, w2: World)
    requires Invariant(w)
    requires Repository.Valid(w2.db) && w2.db.rows == w.db.rows && w2.cache == w.cache
    ensures Invariant(w2)
  {
  }

  lemma {:induction false} CreatePreserves(w: World, data: Fields, now: string)
    requires Invariant(w)
    ensures Invariant(CreateUser(w, data, now).world)
  {
    var o := CreateUser(w, data, now);
    if o.result.Success? {
      var u := o.result.value;
      assert u.id in o.world.db.rows;
      Reestablish(w, o.world, u.id);
    } else {
      Unchanged(w, o.world);
    }
  }

  lemma {:induction false} GetPreserves(w: World, p: string)
    requires Invariant(w)
    ensures Invariant(GetUser(w, p, Canonical).world)
  {
    var o := GetUser(w, p, Canonical);
    var key := KeyFor(Canonical, p);
    var found := Repository.FindById(w.db, p);
    if Misses(w, key) && found.Success? && found.value.Some? {
      var n := Repository.ParseInt4(p).value;
      CanonicalKeyOfParam(p);
      KeyIdOfParam(p);
      assert key == IdKey(n);
      Reestablish(w, o.world, n);
    }
  }

  lemma {:induction false} UpdatePreserves(w: World, p: string, data: Fields, now: string)
    requires Invariant(w)
    ensures Invariant(UpdateUser(w, p, data, now, Canonical).world)
  {
    var o := UpdateUser(w, p, data, now, Canonical);
    if o.result.Success? {
      var n := Repository.ParseInt4(p).value;
      CanonicalKeyOfParam(p);
      assert n in o.world.db.rows;
      Reestablish(w, o.world, n);
    }
  }

  lemma {:induction false} DeletePreserves(w: World, p: string)
    requires Invariant(w)
    ensures Invariant(DeleteUser(w, p, Canonical).world)
  {
    var o := DeleteUser(w, p, Canonical);
    if o.result.Success? {
      var n := Repository.ParseInt4(p).value;
      CanonicalKeyOfParam(p);
      Reestablish(w, o.world, n);
    }
  }

  /** A request the service serves, with its route parameter and body where it has them. */
  datatype Op =
    | CreateOp(data: Fields, now: string)
    | GetOp(param: string)
    | UpdateOp(param: string, data: Fields, now: string)
    | DeleteOp(param: string)
    | ListOp

  function Apply(w: World, op: Op, keying: Keying): World
  {
    match op
    case CreateOp(d, t) => CreateUser(w, d, t).world
    case GetOp(p) => GetUser(w, p, keying).world
    case UpdateOp(p, d, t) => UpdateUser(w, p, d, t, keying).world
    case DeleteOp(p) => DeleteUser(w, p, keying).world
    case ListOp => GetAllUsers(w).world
  }

  function Run(w: World, ops: seq<Op>, keying: Keying): World
    decreases |ops|
  {
    if |ops| == 0 then w else Run(Apply(w, ops[0], keying), ops[1..], keying)
  }

  /** With canonical keys, every operation on every parameter keeps every cache entry fresh. */
  lemma ApplyPreserves(w: World, op: Op)
    requires Invariant(w)
    ensures Invariant(Apply(w, op, Canonical))
  {
    match op
    case CreateOp(d, t) => CreatePreserves(w, d, t);
    case GetOp(p) => GetPreserves(w, p);
    case UpdateOp(p, d, t) => UpdatePreserves(w, p, d, t);
    case DeleteOp(p) => DeletePreserves(w, p);
    case ListOp =>
  }

  /** Any sequential run of requests keeps the cache consistent with the store. */
  lemma {:induction false} RunPreserves(w: World, ops: seq<Op>)
    requires Invariant(w)
    ensures Invariant(Run(w, ops, Canonical))
    decreases |ops|
  {
    if |ops| > 0 {
      ApplyPreserves(w, ops[0]);
      RunPreserves(Apply(w, ops[0], Canonical), ops[1..]);
    }
  }

  /**
   * A route parameter whose raw key is already the canonical one: it is
   * the id as JavaScript prints it, or the store reads no row id from it.
   */
  predicate CanonicalParam(p: string)
  {
    match Repository.ParseInt4(p)
    case Success(n) => n < 0 || p == NatText(n)
    case Failure(_) => true
  }

  lemma KeyingsAgree(p: string)
    requires CanonicalParam(p)
    ensures KeyFor(AsWritten, p) == KeyFor(Canonical, p)
  {
  }

  predicate OpCanonical(op: Op)
  {
    match op
    case GetOp(p) => CanonicalParam(p)
    case UpdateOp(p, _, _) => CanonicalParam(p)
    case DeleteOp(p) => CanonicalParam(p)
    case _ => true
  }

  /**
   * On a canonical parameter the service as written and the canonical one
   * give the same result, issue the same calls and leave the same state.
   */
  lemma OutcomesAgree(w: World, p: string, data: Fields, now: string)
    requires CanonicalParam(p)
    ensures GetUser(w, p, AsWritten) == GetUser(w, p, Canonical)
    ensures UpdateUser(w, p, data, now, AsWritten) == UpdateUser(w, p, data, now, Canonical)
    ensures DeleteUser(w, p, AsWritten) == DeleteUser(w, p, Canonical)
  {
    KeyingsAgree(p);
  }

  /** Hence a request with a canonical parameter leaves the same state under either key rule. */
  lemma ApplyAgrees(w: World, op: Op)
    requires OpCanonical(op)
    ensures Apply(w, op, AsWritten) == Apply(w, op, Canonical)
  {
    match op
    case GetOp(p) => OutcomesAgree(w, p, Fields("", ""), "");
    case UpdateOp(p, data, now) => OutcomesAgree(w, p, data, now);
    case DeleteOp(p) => OutcomesAgree(w, p, Fields("", ""), "");
    case _ =>
  }

  /**
   * The service as written keeps the cache consistent with the store over
   * any run of requests whose ids are written the way JavaScript prints them.
   */
  lemma {:induction false} AsWrittenRunPreserves(w: World, ops: seq<Op>)
    requires Invariant(w)
    requires forall i :: 0 <= i < |ops| ==> OpCanonical(ops[i])
    ensures Invariant(Run(w, ops, AsWritten))
    decreases |ops|
  {
    if |ops| > 0 {
      ApplyAgrees(w, ops[0]);
      ApplyPreserves(w, ops[0]);
      AsWrittenRunPreserves(Apply(w, ops[0], AsWritten), ops[1..]);
    }
  }

  /**
   * Under the invariant the cache is transparent: a read returns what the
   * store holds (or throws what reading the store throws), hit or miss, for
   * either keying.
   */
  lemma ReadsAgreeWithStore(w: World, p: string, keying: Keying)
    requires Invariant(w)
    ensures GetUser(w, p, keying).result ==
      (match Repository.FindById(w.db, p)
       case Failure(e) => Failure(e)
       case Success(None) => Failure(UserNotFound())
       case Success(Some(u)) => Success(u))
  {
    var key := KeyFor(keying, p);
    KeyIdOfParam(p);
    CanonicalKeyOfParam(p);
    if key in w.cache.data {
      var n := KeyId(key).value;
      assert key == IdKey(n);
      var row := w.db.rows[n];
      assert Repository.ParseInt4(p) == Success(n) by {
        if keying == AsWritten {
          assert ("user:" + p)[5..] == p;
          assert IdKey(n)[5..] == NatText(n);
        }
      }
      EncodeUserNonEmpty(row);
      DecodeEncodeUser(row);
    }
  }

  /** After a create, reading the new id is served from the cache, without a store call. */
  lemma ReadAfterCreate(w: World, data: Fields, now: string, keying: Keying)
    requires Invariant(w)
    requires CreateUser(w, data, now).result.Success?
    ensures
      var o := CreateUser(w, data, now);
      var u := o.result.value;
      GetUser(o.world, NatText(u.id), keying) == Outcome(o.world, Success(u), [CacheGet(IdKey(u.id))])
  {
    var o := CreateUser(w, data, now);
    var u := o.result.value;
    assert Repository.Valid(o.world.db) && u.id in o.world.db.rows;
    Repository.ParseInt4OfNatText(u.id);
    var key := KeyFor(keying, NatText(u.id));
    assert key == IdKey(u.id);
    assert o.world.cache.data[key] == Cache.Entry(EncodeUser(u), None);
    EncodeUserNonEmpty(u);
    DecodeEncodeUser(u);
    assert Cache.Get(o.world.cache, key).result == Success(Some(u));
  }

  /** After an update, reading the same id is served from the cache and returns the new row. */
  lemma ReadAfterUpdate(w: World, p: string, data: Fields, now: string)
    requires Invariant(w)
    ensures
      var o := UpdateUser(w, p, data, now, Canonical);
      o.result.Success? ==>
      GetUser(o.world, p, Canonical) == Outcome(o.world, Success(o.result.value), [CacheGet(KeyFor(Canonical, p))])
  {
    var o := UpdateUser(w, p, data, now, Canonical);
    if o.result.Success? {
      EncodeUserNonEmpty(o.result.value);
      DecodeEncodeUser(o.result.value);
    }
  }

  /** After a delete, reading the same id misses the cache and the store reports no such user. */
  lemma ReadAfterDelete(w: World, p: string)
    requires Invariant(w)
    requires DeleteUser(w, p, Canonical).result.Success?
    ensures
      var o := DeleteUser(w, p, Canonical);
      GetUser(o.world, p, Canonical) ==
        Outcome(o.world, Failure(UserNotFound()), [CacheGet(KeyFor(Canonical, p)), DbSelect(p)])
  {
  }

  // The three states of the run below, for any user stored under id 1.

  function OnlyRow(u: User): World
  {
    World(Repository.Store(map[1 := u], 2), Cache.Client(map[], false))
  }

  function CachedAs01(u: User): World
  {
    World(Repository.Store(map[1 := u], 2), Cache.Client(map["user:01" := Cache.Entry(EncodeUser(u), Some(ReadTtl))], false))
  }

  function DeletedStillCached(u: User): World
  {
    World(Repository.Store(map[], 2), Cache.Client(map["user:01" := Cache.Entry(EncodeUser(u), Some(ReadTtl))], false))
  }

  /** A table holding one user under id 1, with an empty closed cache, satisfies the invariant. */
  lemma OnlyRowInvariant(u: User)
    requires u.id == 1
    ensures Invariant(OnlyRow(u))
  {
    var w := OnlyRow(u);
    assert Repository.Valid(w.db);
    assert w.cache.data == map[];
  }

  lemma ParseOf01()
    ensures Repository.ParseInt4("01") == Success(1)
  {
    assert DigitsValue("01") == 1;
    Repository.ParseInt4OfDigits("", "01", "");
    assert "" + "01" + "" == "01";
  }

  lemma ParseOf1()
    ensures Repository.ParseInt4("1") == Success(1)
  {
    Repository.ParseInt4OfNatText(1);
    assert NatText(1) == "1";
  }

  lemma ParamsOfOne()
    ensures Repository.ParseInt4("01") == Success(1)
    ensures Repository.ParseInt4("1") == Success(1)
    ensures KeyId("user:01") == Some(1)
  {
    ParseOf01();
    ParseOf1();
    KeyIdOfParam("01");
  }

  /** Postgres also reads ` 1`, with a leading space, as id 1, so its raw key is not canonical. */
  lemma PaddedParamOfOne()
    ensures Repository.ParseInt4(" 1") == Success(1) && !CanonicalParam(" 1")
  {
    Repository.ParseInt4OfPadded(" ", 1, "");
    assert " " + NatText(1) + "" == " 1";
  }

  lemma ReadAs01Caches(u: User)
    requires u.id == 1
    ensures GetUser(OnlyRow(u), "01", AsWritten).world == CachedAs01(u)
    ensures Consistent(CachedAs01(u))
  {
    var w0 := OnlyRow(u);
    assert KeyFor(AsWritten, "01") == "user:01";
    assert Misses(w0, "user:01");
    assert Repository.FindById(w0.db, "01") == Success(Some(u)) by { ParseOf01(); }
    var o := GetUser(w0, "01", AsWritten);
    assert o.world.cache.data == map["user:01" := Cache.Entry(EncodeUser(u), Some(ReadTtl))];
  }

  lemma StoreDeleteAs1(u: User)
    requires u.id == 1
    ensures Repository.Delete(OnlyRow(u).db, "1") == (Repository.Store(map[], 2), Success(Some(u)))
  {
    assert Repository.ParseInt4("1") == Success(1) by { ParamsOfOne(); }
    var deleted := Repository.Delete(OnlyRow(u).db, "1");
    assert deleted.1 == Success(Some(u));
    assert deleted.0.rows == map[];
  }

  lemma DeleteAs1MissesEntry(u: User)
    requires u.id == 1
    ensures DeleteUser(CachedAs01(u), "1", AsWritten).world == DeletedStillCached(u)
  {
    var w1 := CachedAs01(u);
    StoreDeleteAs1(u);
    assert w1.db == OnlyRow(u).db;
    assert KeyFor(AsWritten, "1") == "user:1";
    var s := Cache.Del(w1.cache, "user:1");
    assert "user:01" != "user:1";
    assert w1.cache.data - {"user:1"} == w1.cache.data;
    assert s.client == DeletedStillCached(u).cache;
  }

  lemma StaleReadAs01(u: User)
    requires u.id == 1
    ensures GetUser(DeletedStillCached(u), "01", AsWritten).result == Success(u)
    ensures !Consistent(DeletedStillCached(u))
  {
    var w2 := DeletedStillCached(u);
    ParamsOfOne();
    assert KeyFor(AsWritten, "01") == "user:01";
    assert w2.cache.data["user:01"].text == EncodeUser(u);
    EncodeUserNonEmpty(u);
    DecodeEncodeUser(u);
    assert Cache.Get(w2.cache, "user:01").result == Success(Some(u));
    assert !Current(w2.db, "user:01", w2.cache.data["user:01"]);
  }

  /**
   * The service as written keys the cache by the raw route text, so two
   * spellings of one id get two entries. Reading `/users/01` caches the row
   * under `user:01`; deleting `/users/1` invalidates only `user:1`; a later
   * read of `/users/01` still returns the deleted user from the cache.
   */
  lemma RawKeyServesDeletedUser(u: User)
    requires u.id == 1
    ensures Invariant(OnlyRow(u))
    ensures
      var w1 := GetUser(OnlyRow(u), "01", AsWritten).world;
      var w2 := DeleteUser(w1, "1", AsWritten).world;
      && Consistent(w1)
      && w2.db.rows == map[]
      && !Consistent(w2)
      && GetUser(w2, "01", AsWritten).result == Success(u)
  {
    OnlyRowInvariant(u);
    ReadAs01Caches(u);
    var w1 := GetUser(OnlyRow(u), "01", AsWritten).world;
    assert w1 == CachedAs01(u);
    DeleteAs1MissesEntry(u);
    var w2 := DeleteUser(w1, "1", AsWritten).world;
    assert w2 == DeletedStillCached(u);
    StaleReadAs01(u);
  }

  /** With canonical keys the same three requests end in "User not found". */
  lemma CanonicalKeyForgetsDeletedUser(u: User)
    requires u.id == 1
    ensures
      var w1 := GetUser(OnlyRow(u), "01", Canonical).world;
      var w2 := DeleteUser(w1, "1", Canonical).world;
      GetUser(w2, "01", Canonical).result == Failure(UserNotFound())
  {
    ParamsOfOne();
    var w0 := OnlyRow(u);
    assert Invariant(w0);
    var w1 := GetUser(w0, "01", Canonical).world;
    GetPreserves(w0, "01");
    var w2 := DeleteUser(w1, "1", Canonical).world;
    DeletePreserves(w1, "1");
    ReadsAgreeWithStore(w2, "01", Canonical);
  }

  // The states of the second run below: user `u` under id 1, rewritten with `v`.

  function CachedAs1(u: User): World
  {
    World(Repository.Store(map[1 := u], 2), Cache.Client(map["user:1" := Cache.Entry(EncodeUser(u), Some(ReadTtl))], false))
  }

  function UpdatedAs01(u: User, v: User): World
  {
    World(Repository.Store(map[1 := v], 2),
          Cache.Client(map["user:1" := Cache.Entry(EncodeUser(u), Some(ReadTtl)), "user:01" := Cache.Entry(EncodeUser(v), None)], false))
  }

  lemma ReadAs1Caches(u: User)
    requires u.id == 1
    ensures GetUser(OnlyRow(u), "1", AsWritten).world == CachedAs1(u)
  {
    var w0 := OnlyRow(u);
    assert KeyFor(AsWritten, "1") == "user:1";
    assert Misses(w0, "user:1");
    assert Repository.FindById(w0.db, "1") == Success(Some(u)) by { ParseOf1(); }
  }

  lemma StoreUpdateAs01(u: User, f: Fields, now: string)
    requires u.id == 1
    requires |f.name| <= Repository.VarcharLength && |f.email| <= Repository.VarcharLength
    ensures
      var v := u.(name := f.name, email := f.email, updatedAt := now);
      Repository.Update(OnlyRow(u).db, "01", f, now) == (Repository.Store(map[1 := v], 2), Success(Some(v)))
  {
    assert Repository.ParseInt4("01") == Success(1) by { ParamsOfOne(); }
    var db := OnlyRow(u).db;
    var v := u.(name := f.name, email := f.email, updatedAt := now);
    assert Repository.ColumnValues(f) == Success(f);
    assert !Repository.EmailTaken(db.rows, f.email, Some(1));
    var updated := Repository.Update(db, "01", f, now);
    assert updated.1 == Success(Some(v));
    assert updated.0.rows == map[1 := v];
  }

  lemma UpdateAs01Keeps1(u: User, f: Fields, now: string)
    requires u.id == 1
    requires |f.name| <= Repository.VarcharLength && |f.email| <= Repository.VarcharLength
    ensures
      var v := u.(name := f.name, email := f.email, updatedAt := now);
      UpdateUser(CachedAs1(u), "01", f, now, AsWritten) == Outcome(UpdatedAs01(u, v), Success(v), [DbUpdate("01"), CacheSet("user:01", None)])
  {
    var w1 := CachedAs1(u);
    var v := u.(name := f.name, email := f.email, updatedAt := now);
    StoreUpdateAs01(u, f, now);
    assert w1.db == OnlyRow(u).db;
    assert KeyFor(AsWritten, "01") == "user:01";
    assert Cache.Set(w1.cache, "user:01", v, None).client == UpdatedAs01(u, v).cache;
  }

  lemma OldEntryNotCurrent(u: User, v: User)
    requires v.id == 1 && u.name != v.name
    ensures !Consistent(UpdatedAs01(u, v))
  {
    var w2 := UpdatedAs01(u, v);
    assert KeyId("user:1") == Some(1) by { KeyIdOfIdKey(1); }
    assert !Current(w2.db, "user:1", w2.cache.data["user:1"]) by {
      if EncodeUser(u) == EncodeUser(v) { EncodeUserInjective(u, v); }
    }
  }

  lemma StaleReadAs1(u: User, v: User)
    requires v.id == 1 && u.name != v.name
    ensures GetUser(UpdatedAs01(u, v), "1", AsWritten).result == Success(u)
    ensures !Consistent(UpdatedAs01(u, v))
  {
    OldEntryNotCurrent(u, v);
    var w2 := UpdatedAs01(u, v);
    assert KeyFor(AsWritten, "1") == "user:1";
    assert w2.cache.data["user:1"].text == EncodeUser(u);
    EncodeUserNonEmpty(u);
    DecodeEncodeUser(u);
    assert Cache.Get(w2.cache, "user:1").result == Success(Some(u));
  }

  /**
   * The raw key also goes stale without any delete: reading `/users/1`
   * caches the row under `user:1`; updating `/users/01` rewrites the row
   * and caches it under `user:01`; a later read of `/users/1` returns the
   * row as it was before the update.
   */
  lemma RawKeyServesOverwrittenUser(u: User, f: Fields, now: string)
    requires u.id == 1 && u.name != f.name
    requires |f.name| <= Repository.VarcharLength && |f.email| <= Repository.VarcharLength
    ensures Invariant(OnlyRow(u))
    ensures
      var w1 := GetUser(OnlyRow(u), "1", AsWritten).world;
      var o := UpdateUser(w1, "01", f, now, AsWritten);
      && o.result.Success?
      && o.world.db.rows[1] == o.result.value
      && o.result.value.name == f.name
      && !Consistent(o.world)
      && GetUser(o.world, "1", AsWritten).result == Success(u)
  {
    OnlyRowInvariant(u);
    ReadAs1Caches(u);
    var v := u.(name := f.name, email := f.email, updatedAt := now);
    UpdateAs01Keeps1(u, f, now);
    StaleReadAs1(u, v);
  }

  /** With canonical keys the same three requests succeed and read back the updated row. */
  lemma CanonicalKeyServesUpdatedUser(u: User, f: Fields, now: string)
    requires u.id == 1
    requires |f.name| <= Repository.VarcharLength && |f.email| <= Repository.VarcharLength
    ensures
      var w1 := GetUser(OnlyRow(u), "1", Canonical).world;
      var o := UpdateUser(w1, "01", f, now, Canonical);
      && o.result.Success?
      && o.result.value == u.(name := f.name, email := f.email, updatedAt := now)
      && GetUser(o.world, "1", Canonical).result == Success(o.result.value)
  {
    var w0 := OnlyRow(u);
    OnlyRowInvariant(u);
    var w1 := GetUser(w0, "1", Canonical).world;
    GetPreserves(w0, "1");
    assert w1.db == w0.db;
    StoreUpdateAs01(u, f, now);
    var o := UpdateUser(w1, "01", f, now, Canonical);
    assert o.result.Success?;
    UpdatePreserves(w1, "01", f, now);
    assert Repository.ParseInt4("1") == Success(1) by { ParamsOfOne(); }
    ReadsAgreeWithStore(o.world, "1", Canonical);
  }
}

=== FILE: controller.dfy ===
/**
 * The user controller: each handler records on the active span, calls the
 * service, and either sends the response or records the failure on the
 * span and forwards the same error with `next(err)`. The active span is
 * always present here (the handlers call it without a check).
 */
module Controller {
  import opened Common
  import opened Js
  import opened Records
  import opened Span
  import opened Http
  import Service
  import Repository

  /** The state, span and reply a handler leaves. */
  datatype Handled = Handled(world: Service.World, span: Span, reply: Reply)

  const UserIdAttr: string := "app.user.id"
  const UsersCountAttr: string := "app.users.count"
  const CreationStarted: string := "User creation started"
  const CreationCompleted: string := "User creation completed"

  /** The shared catch block: mark the span failed and forward the error unchanged. */
  function Fail(w: Service.World, span: Span, e: Err): (h: Handled)
    ensures h.reply == NextError(e) && h.span == MarkFailed(span, e) && h.world == w
  {
    Handled(w, MarkFailed(span, e), NextError(e))
  }

  /**
   * What `createUser` does with the service's outcome, after the "started"
   * event: on success the store-assigned id as attribute and in the
   * "completed" event, and 201 with the created user.
   */
  function Created(started: Span, o: Service.Outcome<User>): (h: Handled)
    ensures h.world == o.world
    ensures o.result.Success? ==>
      && h.reply == Send(Response(201, UserBody(o.result.value)))
      && h.span == AddEvent(started.(attrs := started.attrs[UserIdAttr := Num(o.result.value.id)]),
                            CreationCompleted, map[UserIdAttr := Num(o.result.value.id)])
    ensures o.result.Failure? ==> h == Fail(o.world, started, o.result.error)
  {
    match o.result
    case Failure(e) => Fail(o.world, started, e)
    case Success(u) =>
      var traced := AddEvent(SetAttribute(started, UserIdAttr, Num(u.id)), CreationCompleted, map[UserIdAttr := Num(u.id)]);
      Handled(o.world, traced, Send(Response(201, UserBody(u))))
  }

  /**
   * `createUser`: the "started" event before the service call; on success
   * the store-assigned id as attribute and in the "completed" event, and
   * 201 with the created user.
   */
  function CreateUser(w: Service.World, span: Span, body: Fields, now: string): (h: Handled)
    ensures h.world == Service.CreateUser(w, body, now).world
    ensures |h.span.events| > |span.events|
    ensures h.span.events[|span.events|] == Event(CreationStarted, map[])
    ensures h.span.events[..|span.events|] == span.events
    ensures h.span.name == span.name && h.span.ends == span.ends
    ensures
      var o := Service.CreateUser(w, body, now);
      o.result.Success? ==>
        && h.reply == Send(Response(201, UserBody(o.result.value)))
        && h.span.attrs == span.attrs[UserIdAttr := Num(o.result.value.id)]
        && h.span.events == span.events + [Event(CreationStarted, map[]), Event(CreationCompleted, map[UserIdAttr := Num(o.result.value.id)])]
        && h.span.status == span.status
        && h.span.exceptions == span.exceptions
    ensures
      var o := Service.CreateUser(w, body, now);
      o.result.Failure? ==>
        && h.reply == NextError(o.result.error)
        && h.span.status == StatusError(o.result.error.message)
        && h.span.exceptions == span.exceptions + [o.result.error]
        && h.span.events == span.events + [Event(CreationStarted, map[])]
        && h.span.attrs == span.attrs
  {
    var started := AddEvent(span, CreationStarted, map[]);
    Created(started, Service.CreateUser(w, body, now))
  }

  /**
   * `getUser`: the route id as attribute before the service call, so it is
   * present on failure too; on success the user with the default status.
   */
  function GetUser(w: Service.World, span: Span, id: string): (h: Handled)
    ensures h.world == Service.GetUser(w, id, Service.AsWritten).world
    ensures h.span.attrs == span.attrs[UserIdAttr := Str(id)]
    ensures h.span.events == span.events
    ensures h.span.name == span.name && h.span.ends == span.ends
    ensures
      var o := Service.GetUser(w, id, Service.AsWritten);
      && (o.result.Success? ==> h.reply == Send(Response(DefaultStatus, UserBody(o.result.value))) && h.span.status == span.status
                                && h.span.exceptions == span.exceptions)
      && (o.result.Failure? ==> h.reply == NextError(o.result.error) && h.span.status == StatusError(o.result.error.message)
                                && h.span.exceptions == span.exceptions + [o.result.error])
  {
    var tagged := SetAttribute(span, UserIdAttr, Str(id));
    var o := Service.GetUser(w, id, Service.AsWritten);
    match o.result
    case Failure(e) => Fail(o.world, tagged, e)
    case Success(u) => Handled(o.world, tagged, Send(Response(DefaultStatus, UserBody(u))))
  }

  /** `updateUser`: as `getUser`, around the service's update. */
  function UpdateUser(w: Service.World, span: Span, id: string, body: Fields, now: string): (h: Handled)
    ensures h.world == Service.UpdateUser(w, id, body, now, Service.AsWritten).world
    ensures h.span.attrs == span.attrs[UserIdAttr := Str(id)]
    ensures h.span.events == span.events
    ensures h.span.name == span.name && h.span.ends == span.ends
    ensures
      var o := Service.UpdateUser(w, id, body, now, Service.AsWritten);
      && (o.result.Success? ==> h.reply == Send(Response(DefaultStatus, UserBody(o.result.value))) && h.span.status == span.status
                                && h.span.exceptions == span.exceptions)
      && (o.result.Failure? ==> h.reply == NextError(o.result.error) && h.span.status == StatusError(o.result.error.message)
                                && h.span.exceptions == span.exceptions + [o.result.error])
  {
    var tagged := SetAttribute(span, UserIdAttr, Str(id));
    var o := Service.UpdateUser(w, id, body, now, Service.AsWritten);
    match o.result
    case Failure(e) => Fail(o.world, tagged, e)
    case Success(u) => Handled(o.world, tagged, Send(Response(DefaultStatus, UserBody(u))))
  }

  /** `deleteUser`: the route id as attribute, then 204 with an empty body on success. */
  function DeleteUser(w: Service.World, span: Span, id: string): (h: Handled)
    ensures h.world == Service.DeleteUser(w, id, Service.AsWritten).world
    ensures h.span.attrs == span.attrs[UserIdAttr := Str(id)]
    ensures h.span.events == span.events
    ensures h.span.name == span.name && h.span.ends == span.ends
    ensures
      var o := Service.DeleteUser(w, id, Service.AsWritten);
      && (o.result.Success? ==> h.reply == Send(Response(204, NoBody)) && h.span.status == span.status
                                && h.span.exceptions == span.exceptions)
      && (o.result.Failure? ==> h.reply == NextError(o.result.error) && h.span.status == StatusError(o.result.error.message)
                                && h.span.exceptions == span.exceptions + [o.result.error])
  {
    var tagged := SetAttribute(span, UserIdAttr, Str(id));
    var o := Service.DeleteUser(w, id, Service.AsWritten);
    match o.result
    case Failure(e) => Fail(o.world, tagged, e)
    case Success(_) => Handled(o.world, tagged, Send(Response(204, NoBody)))
  }

  /** `getAllUsers`: the count of users as attribute, and the whole list. */
  function GetAllUsers(w: Service.World, span: Span): (h: Handled)
    ensures h.world == w
    ensures h.span == span.(attrs := span.attrs[UsersCountAttr := Num(|Service.GetAllUsers(w).result.value|)])
    ensures h.reply == Send(Response(DefaultStatus, UsersBody(Service.GetAllUsers(w).result.value)))
    ensures Repository.Valid(w.db) ==>
      && h.span.attrs == span.attrs[UsersCountAttr := Num(|w.db.rows|)]
      && h.reply.Send? && h.reply.response.status == DefaultStatus && h.reply.response.body.UsersBody?
      && (forall u :: u in h.reply.response.body.users <==> u in w.db.rows.Values)
  {
    var o := Service.GetAllUsers(w);
    match o.result
    case Failure(e) => Fail(o.world, span, e)
    case Success(users) =>
      Handled(o.world, SetAttribute(span, UsersCountAttr, Num(|users|)), Send(Response(DefaultStatus, UsersBody(users))))
  }
}

=== FILE: decimal.dfy ===
/** Decimal digit strings: how JavaScript prints a non-negative integer, and how text is read back. */
module Decimal {

  predicate IsDigit(c: char) {
    '0' <= c <= '9'
  }

  predicate AllDigits(s: string) {
    forall i :: 0 <= i < |s| ==> IsDigit(s[i])
  }

  function DigitChar(d: nat): (c: char)
    requires d < 10
    ensures IsDigit(c)
  {
    (d + 48) as char
  }

  function DigitValue(c: char): (d: nat)
    requires IsDigit(c)
    ensures d < 10
  {
    (c as int) - 48
  }

  /**
   * The text `String(n)` gives for a non-negative integer: decimal digits,
   * no sign, and no leading zero unless the number is zero.
   */
  function NatText(n: nat): (s: string)
    ensures |s| > 0 && AllDigits(s)
    ensures s[0] == '0' ==> n == 0
    decreases n
  {
    if n < 10 then [DigitChar(n)] else NatText(n / 10) + [DigitChar(n % 10)]
  }

  /** The value of a string of decimal digits, most significant first. */
  function DigitsValue(s: string): nat
    requires AllDigits(s)
    decreases |s|
  {
    if |s| == 0 then 0 else 10 * DigitsValue(s[..|s| - 1]) + DigitValue(s[|s| - 1])
  }

  /** Reading back the printed text of a number gives the number. */
  lemma {:induction false} DigitsValueOfNatText(n: nat)
    ensures DigitsValue(NatText(n)) == n
    decreases n
  {
    if n >= 10 {
      var s := NatText(n);
      DigitsValueOfNatText(n / 10);
      assert s[..|s| - 1] == NatText(n / 10);
    }
  }

  /** Distinct numbers print as distinct texts. */
  lemma NatTextInjective(m: nat, n: nat)
    requires NatText(m) == NatText(n)
    ensures m == n
  {
    DigitsValueOfNatText(m);
    DigitsValueOfNatText(n);
  }

  /** The length of the longest prefix of `s` made of digits. */
  function DigitRun(s: string): (k: nat)
    ensures k <= |s|
    ensures AllDigits(s[..k])
    ensures k < |s| ==> !IsDigit(s[k])
    decreases |s|
  {
    if |s| == 0 || !IsDigit(s[0]) then 0 else 1 + DigitRun(s[1..])
  }

  /** The digit run of a digit string followed by a non-digit stops exactly at the boundary. */
  lemma {:induction false} DigitRunOfAppend(t: string, rest: string)
    requires AllDigits(t)
    requires rest == [] || !IsDigit(rest[0])
    ensures DigitRun(t + rest) == |t|
    decreases |t|
  {
    if |t| > 0 {
      assert (t + rest)[1..] == t[1..] + rest;
      DigitRunOfAppend(t[1..], rest);
    }
  }
}

=== FILE: errorhandler.dfy ===
/** The error-handling middleware: a forwarded error becomes the JSON error response. */
module ErrorHandler {
  import opened Common
  import opened Js
  import opened Span
  import opened Http
  import Service

  const InternalServerError: string := "Internal Server Error"

  /**
   * `errorHandler(err, req, res, next)`: status `err.status` when truthy,
   * else 500; body `{error: {message}}` with `err.message` when truthy, else
   * "Internal Server Error"; and, when a span is active, the same status and
   * message written to the span with the exception recorded.
   */
  function Handle(err: Err, span: Option<Span>): (r: (Response, Option<Span>))
    ensures TruthyInt(err.status) ==> r.0.status == err.status.value
    ensures !TruthyInt(err.status) ==> r.0.status == 500
    ensures TruthyString(err.message) ==> r.0.body == ErrorBody(err.message)
    ensures !TruthyString(err.message) ==> r.0.body == ErrorBody(InternalServerError)
    ensures span.None? <==> r.1.None?
    ensures span.Some? ==>
      && r.1.value.attrs == span.value.attrs[HttpStatusCode := Num(r.0.status)]
      && r.1.value.status == StatusError(r.0.body.message)
      && r.1.value.exceptions == span.value.exceptions + [err]
      && r.1.value.events == span.value.events
      && r.1.value.ends == span.value.ends
      && r.1.value.name == span.value.name
  {
    var status := if TruthyInt(err.status) then err.status.value else 500;
    var message := if TruthyString(err.message) then err.message else InternalServerError;
    var traced :=
      match span
      case None => None
      case Some(s) => Some(RecordException(SetError(SetAttribute(s, HttpStatusCode, Num(status)), message), err));
    (Response(status, ErrorBody(message)), traced)
  }

  /** Whether a span is active changes nothing about the response. */
  lemma ResponseIgnoresSpan(err: Err, s: Span)
    ensures Handle(err, None).0 == Handle(err, Some(s)).0
  {
  }

  /**
   * The service's "User not found" error has no `status`, so it reaches the
   * client as a 500 carrying the message, not as a 404.
   */
  lemma NotFoundIs500(span: Option<Span>)
    ensures Handle(Service.UserNotFound(), span).0 == Response(500, ErrorBody(Service.NotFoundMessage))
  {
  }

  /** A not-found error that carries status 404: the same message with a `status` field. */
  function NotFoundWithStatus(): Err
  {
    Err(Service.NotFoundMessage, Some(404))
  }

  /** With a status on the error, the same handler answers 404 with the same body. */
  lemma NotFoundWithStatusIs404(span: Option<Span>)
    ensures Handle(NotFoundWithStatus(), span).0 == Response(404, ErrorBody(Service.NotFoundMessage))
  {
  }
}

=== FILE: flow.dfy ===
/**
 * Whole requests through the user routes: the controller's reply, passed
 * through the error handler when it forwards an error, against what the
 * store holds. These are the controllers' partners: what a client sees is
 * fixed by the store alone while the cache-aside invariant holds.
 */
module RequestFlow {
  import opened Common
  import opened Js
  import opened Decimal
  import opened Records
  import opened Span
  import opened Http
  import Repository
  import Service
  import Consistency
  import Controller
  import ErrorHandler

  /**
   * The response the client receives for a handler's reply: the reply's own
   * response, or the error handler's for a forwarded error; nothing for a
   * bare `next()`.
   */
  function ClientResponse(h: Controller.Handled): Option<Response>
  {
    match h.reply
    case Send(r) => Some(r)
    case NextError(e) => Some(ErrorHandler.Handle(e, Some(h.span)).0)
    case Next => None
  }

  /**
   * `GET /users/:id` under the invariant: the stored row with status 200, a
   * 500 "User not found" when there is none, and the store's own error
   * otherwise, whatever the cache holds.
   */
  lemma GetAnswersFromStore(w: Service.World, span: Span, id: string)
    requires Consistency.Invariant(w)
    ensures
      var r := ClientResponse(Controller.GetUser(w, span, id));
      match Repository.FindById(w.db, id)
      case Success(Some(u)) => r == Some(Response(DefaultStatus, UserBody(u)))
      case Success(None) => r == Some(Response(500, ErrorBody(Service.NotFoundMessage)))
      case Failure(e) => r == Some(ErrorHandler.Handle(e, None).0)
  {
    Consistency.ReadsAgreeWithStore(w, id, Service.AsWritten);
    var h := Controller.GetUser(w, span, id);
    if h.reply.NextError? {
      ErrorHandler.ResponseIgnoresSpan(h.reply.err, h.span);
      ErrorHandler.NotFoundIs500(None);
    }
  }

  /**
   * `POST /users` then `GET /users/<the new id>`: a 201 with a user is
   * followed by a 200 with the same user.
   */
  lemma CreatedUserReadable(w: Service.World, span: Span, later: Span, body: Fields, now: string)
    requires Consistency.Invariant(w)
    ensures
      var h := Controller.CreateUser(w, span, body, now);
      h.reply.Send? ==>
        && h.reply.response.status == 201
        && h.reply.response.body.UserBody?
        && Controller.GetUser(h.world, later, NatText(h.reply.response.body.user.id)).reply
           == Send(Response(DefaultStatus, h.reply.response.body))
  {
    var h := Controller.CreateUser(w, span, body, now);
    if h.reply.Send? {
      assert Service.CreateUser(w, body, now).result.Success?;
      Consistency.ReadAfterCreate(w, body, now, Service.AsWritten);
    }
  }

  /**
   * `PUT /users/:id` then `GET /users/:id`, for an id the store prints back
   * as written: a 200 with a user is followed by a 200 with the same user.
   */
  lemma UpdatedUserReadable(w: Service.World, span: Span, later: Span, id: string, body: Fields, now: string)
    requires Consistency.Invariant(w)
    requires Consistency.CanonicalParam(id)
    ensures
      var h := Controller.UpdateUser(w, span, id, body, now);
      h.reply.Send? ==> Controller.GetUser(h.world, later, id).reply == h.reply
  {
    var h := Controller.UpdateUser(w, span, id, body, now);
    var o := Service.UpdateUser(w, id, body, now, Service.AsWritten);
    Consistency.OutcomesAgree(w, id, body, now);
    Consistency.OutcomesAgree(o.world, id, body, now);
    Consistency.ReadAfterUpdate(w, id, body, now);
  }

  /** A read the service answers with "User not found" reaches the client as that 500. */
  lemma NotFoundReachesClient(w: Service.World, span: Span, id: string)
    requires Service.GetUser(w, id, Service.AsWritten).result == Failure(Service.UserNotFound())
    ensures ClientResponse(Controller.GetUser(w, span, id)) == Some(Response(500, ErrorBody(Service.NotFoundMessage)))
  {
    var g := Controller.GetUser(w, span, id);
    assert g.reply == NextError(Service.UserNotFound());
    ErrorHandler.ResponseIgnoresSpan(Service.UserNotFound(), g.span);
    ErrorHandler.NotFoundIs500(None);
  }

  /**
   * `DELETE /users/:id` then `GET /users/:id`, for an id the store prints
   * back as written: a 204 is followed by the error handler's
   * "User not found".
   */
  lemma DeletedUserGone(w: Service.World, span: Span, later: Span, id: string)
    requires Consistency.Invariant(w)
    requires Consistency.CanonicalParam(id)
    ensures
      var h := Controller.DeleteUser(w, span, id);
      h.reply.Send? ==>
        && h.reply == Send(Response(204, NoBody))
        && ClientResponse(Controller.GetUser(h.world, later, id)) == Some(Response(500, ErrorBody(Service.NotFoundMessage)))
  {
    var h := Controller.DeleteUser(w, span, id);
    var o := Service.DeleteUser(w, id, Service.AsWritten);
    Consistency.OutcomesAgree(w, id, Fields("", ""), "");
    if h.reply.Send? {
      assert o.result.Success? && h.world == o.world;
      Consistency.ReadAfterDelete(w, id);
      Consistency.OutcomesAgree(o.world, id, Fields("", ""), "");
      NotFoundReachesClient(h.world, later, id);
    }
  }
}

=== FILE: records.dfy ===
/** The records the service stores, caches and returns. */
module Records {

  /**
   * One row of the `users` table: store-assigned `id`, `name`, unique `email`
   * and the two timestamps. Timestamps are held as the ISO-8601 text that
   * `JSON.stringify` writes for them.
   */
  datatype User = User(id: nat, name: string, email: string, createdAt: string, updatedAt: string)

  /** The request-body fields a create or update writes. */
  datatype Fields = Fields(name: string, email: string)
}

=== FILE: repository.dfy ===
/**
 * The `users` table as the service sees it through the repository: rows
 * keyed by a SERIAL id, a unique email, and the Postgres reading of the
 * textual id a route passes in.
 */
module Repository {
  import opened Common
  import opened Decimal
  import opened Js
  import opened Records

  /** The largest value of a Postgres `integer` (and of a SERIAL sequence). */
  const MaxInt4: int := 2147483647
  const MinInt4: int := -2147483648

  /**
   * The table: its rows by id, and the next value of the id sequence.
   * The sequence advances on every insert attempt, even one that fails.
   */
  datatype Store = Store(rows: map<nat, User>, nextId: nat)

  /** The table constraints: ids come from the sequence, emails are unique. */
  ghost predicate Valid(db: Store) {
    && 1 <= db.nextId
    && (forall id :: id in db.rows ==> db.rows[id].id == id && 1 <= id < db.nextId && id <= MaxInt4)
    && (forall a, b :: a in db.rows && b in db.rows && a != b ==> db.rows[a].email != db.rows[b].email)
  }

  /** A table with no rows and a fresh sequence. */
  function Empty(): (db: Store)
    ensures Valid(db) && db.rows == map[] && db.nextId == 1
  {
    Store(map[], 1)
  }

  // The fixed parts of the errors Postgres raises.
  const SyntaxErrorPrefix: string := "invalid input syntax for type integer: \""
  const RangeErrorPrefix: string := "value \""
  const RangeErrorSuffix: string := "\" is out of range for type integer"
  const UniqueViolationMessage: string := "duplicate key value violates unique constraint \"users_email_key\""
  const SequenceExhaustedMessage: string := "nextval: reached maximum value of sequence \"users_id_seq\" (2147483647)"
  const TooLongMessage: string := "value too long for type character varying(100)"

  /** The declared length of the `name` and `email` columns, `VARCHAR(100)`. */
  const VarcharLength: nat := 100

  /** The whitespace Postgres skips around a number: C's `isspace` in the "C" locale. */
  predicate IsSpace(c: char)
  {
    c == ' ' || c == '\t' || c == '\n' || c == '\r' || c == 11 as char || c == 12 as char
  }

  predicate AllSpaces(s: string)
  {
    forall i :: 0 <= i < |s| ==> IsSpace(s[i])
  }

  /** The length of the longest prefix of `s` made of whitespace. */
  function SpaceRun(s: string): (k: nat)
    ensures k <= |s|
    ensures AllSpaces(s[..k])
    ensures k < |s| ==> !IsSpace(s[k])
    decreases |s|
  {
    if |s| == 0 || !IsSpace(s[0]) then 0 else 1 + SpaceRun(s[1..])
  }

  function SyntaxError(s: string): Err
  {
    Err(SyntaxErrorPrefix + s + "\"", None)
  }

  function RangeError(s: string): Err
  {
    Err(RangeErrorPrefix + s + RangeErrorSuffix, None)
  }

  /**
   * How Postgres reads a text parameter compared with an `integer` column
   * (`int4in`): leading whitespace, an optional sign, decimal digits and
   * trailing whitespace. A run of digits whose magnitude passes 2^31 is out
   * of range as soon as it is read, before the rest of the text is looked
   * at; anything but whitespace after the digits is a syntax error; and
   * 2^31 itself is out of range only once it is known to be positive.
   */
  function ParseInt4(s: string): (r: Result<int, Err>)
    ensures r.Success? ==> MinInt4 <= r.value <= MaxInt4
    ensures r.Failure? ==> r.error == SyntaxError(s) || r.error == RangeError(s)
  {
    var t := s[SpaceRun(s)..];
    if |t| > 0 && t[0] == '-' then ReadInt4(s, true, t[1..])
    else if |t| > 0 && t[0] == '+' then ReadInt4(s, false, t[1..])
    else ReadInt4(s, false, t)
  }

  /** The digits and trailing whitespace of `s`, after its sign. */
  function ReadInt4(s: string, negative: bool, body: string): (r: Result<int, Err>)
    ensures r.Success? ==> MinInt4 <= r.value <= MaxInt4
    ensures r.Failure? ==> r.error == SyntaxError(s) || r.error == RangeError(s)
  {
    var k := DigitRun(body);
    if k == 0 then Failure(SyntaxError(s))
    else
      var magnitude := DigitsValue(body[..k]);
      if magnitude > 0 - MinInt4 then Failure(RangeError(s))
      else if !AllSpaces(body[k..]) then Failure(SyntaxError(s))
      else if negative then Success(0 - magnitude)
      else if magnitude > MaxInt4 then Failure(RangeError(s))
      else Success(magnitude)
  }

  /** A whitespace run followed by a text that starts with anything else is skipped exactly. */
  lemma {:induction false} SpaceRunOfAppend(a: string, rest: string)
    requires AllSpaces(a)
    requires rest == [] || !IsSpace(rest[0])
    ensures SpaceRun(a + rest) == |a|
    decreases |a|
  {
    if |a| > 0 {
      assert (a + rest)[1..] == a[1..] + rest;
      SpaceRunOfAppend(a[1..], rest);
    }
  }

  /** Unsigned digits of an `int4` value followed by whitespace are read as that value. */
  lemma {:induction false} ReadInt4OfDigits(s: string, digits: string, trail: string)
    requires AllSpaces(trail)
    requires |digits| > 0 && AllDigits(digits) && DigitsValue(digits) <= MaxInt4
    ensures ReadInt4(s, false, digits + trail) == Success(DigitsValue(digits) as int)
  {
    var t := digits + trail;
    DigitRunOfAppend(digits, trail);
    assert t[..|digits|] == digits;
    assert t[|digits|..] == trail;
  }

  /**
   * A run of digits between whitespace, whose value is an `int4`, is read
   * as that value: leading zeros and whitespace on either side are ignored.
   */
  lemma {:induction false} ParseInt4OfDigits(lead: string, digits: string, trail: string)
    requires AllSpaces(lead) && AllSpaces(trail)
    requires |digits| > 0 && AllDigits(digits) && DigitsValue(digits) <= MaxInt4
    ensures ParseInt4(lead + digits + trail) == Success(DigitsValue(digits) as int)
  {
    var s := lead + digits + trail;
    var t := digits + trail;
    assert s == lead + t;
    assert IsDigit(t[0]);
    SpaceRunOfAppend(lead, t);
    assert s[SpaceRun(s)..] == t;
    assert t[0] != '-' && t[0] != '+';
    assert ParseInt4(s) == ReadInt4(s, false, t);
    ReadInt4OfDigits(s, digits, trail);
  }

  /**
   * The text of an id as JavaScript prints it, with any whitespace around
   * it, is read back by Postgres as that id.
   */
  lemma {:induction false} ParseInt4OfPadded(lead: string, n: nat, trail: string)
    requires n <= MaxInt4 && AllSpaces(lead) && AllSpaces(trail)
    ensures ParseInt4(lead + NatText(n) + trail) == Success(n)
  {
    DigitsValueOfNatText(n);
    ParseInt4OfDigits(lead, NatText(n), trail);
  }

  /** The text of an id as JavaScript prints it is read back by Postgres as that id. */
  lemma ParseInt4OfNatText(n: nat)
    requires n <= MaxInt4
    ensures ParseInt4(NatText(n)) == Success(n)
  {
    ParseInt4OfPadded("", n, "");
    assert "" + NatText(n) + "" == NatText(n);
  }

  /**
   * Whether a text can be assigned to a `VARCHAR(100)` column: it has at
   * most 100 characters, or every character past the 100th is a space.
   */
  predicate FitsVarchar(s: string)
  {
    |s| <= VarcharLength || forall i :: VarcharLength <= i < |s| ==> s[i] == ' '
  }

  /** What the column stores for a text that fits: the text, with the excess spaces cut. */
  function VarcharValue(s: string): (v: string)
    requires FitsVarchar(s)
    ensures |v| <= VarcharLength && v <= s
    ensures |v| == if |s| <= VarcharLength then |s| else VarcharLength
    ensures forall i :: |v| <= i < |s| ==> s[i] == ' '
    ensures |s| <= VarcharLength ==> v == s
  {
    if |s| <= VarcharLength then s else s[..VarcharLength]
  }

  function TooLong(): Err
  {
    Err(TooLongMessage, None)
  }

  /**
   * The `name` and `email` values a write stores, or the length error for
   * the first that does not fit. The cast is applied to the bound
   * parameters while the statement is planned, before any row is read or
   * any id is drawn.
   */
  function ColumnValues(f: Fields): (r: Result<Fields, Err>)
    ensures r.Success? <==> FitsVarchar(f.name) && FitsVarchar(f.email)
    ensures r.Failure? ==> r.error == TooLong()
    ensures r.Success? ==> |r.value.name| <= VarcharLength && |r.value.email| <= VarcharLength
    ensures r.Success? ==> r.value.name <= f.name && r.value.email <= f.email
    ensures r.Success? ==> |r.value.name| == (if |f.name| <= VarcharLength then |f.name| else VarcharLength)
    ensures r.Success? ==> |r.value.email| == (if |f.email| <= VarcharLength then |f.email| else VarcharLength)
    ensures |f.name| <= VarcharLength && |f.email| <= VarcharLength ==> r == Success(f)
  {
    if !FitsVarchar(f.name) || !FitsVarchar(f.email) then Failure(TooLong())
    else Success(Fields(VarcharValue(f.name), VarcharValue(f.email)))
  }

  /** Whether a row other than `except` already holds `email`. */
  predicate EmailTaken(rows: map<nat, User>, email: string, except: Option<nat>)
  {
    exists id :: id in rows && rows[id].email == email && except != Some(id)
  }

  function UniqueViolation(): Err
  {
    Err(UniqueViolationMessage, None)
  }

  function SequenceExhausted(): Err
  {
    Err(SequenceExhaustedMessage, None)
  }

  /** Inserting a row with the sequence's next id and an unused email keeps the constraints. */
  lemma InsertKeepsValid(db: Store, u: User)
    requires Valid(db) && u.id == db.nextId <= MaxInt4 && !EmailTaken(db.rows, u.email, None)
    ensures Valid(Store(db.rows[u.id := u], db.nextId + 1))
  {
  }

  /** Rewriting row `n` in place, with an email no other row holds, keeps the constraints. */
  lemma ReplaceKeepsValid(db: Store, n: nat, u: User)
    requires Valid(db) && n in db.rows && u.id == n && !EmailTaken(db.rows, u.email, Some(n))
    ensures Valid(db.(rows := db.rows[n := u]))
  {
  }

  /**
   * `INSERT ... RETURNING *`: checks the column lengths, draws the next id,
   * then inserts the row with both timestamps set to `now`, unless the
   * email is already used.
   */
  function Create(db: Store, f: Fields, now: string): (r: (Store, Result<User, Err>))
    ensures Valid(db) ==> Valid(r.0)
    ensures Valid(db) && r.1.Success? ==> r.1.value.id !in db.rows
    ensures r.1.Success? ==>
      && ColumnValues(f).Success?
      && r.1.value == User(r.1.value.id, ColumnValues(f).value.name, ColumnValues(f).value.email, now, now)
      && r.0.rows == db.rows[r.1.value.id := r.1.value]
    ensures r.1.Failure? ==> r.0.rows == db.rows
    ensures ColumnValues(f).Failure? ==> r == (db, Failure(TooLong()))
    ensures r.1.Failure? <==>
      ColumnValues(f).Failure? || db.nextId > MaxInt4 || EmailTaken(db.rows, ColumnValues(f).value.email, None)
  {
    match ColumnValues(f)
    case Failure(e) => (db, Failure(e))
    case Success(g) =>
      if db.nextId > MaxInt4 then (db, Failure(SequenceExhausted()))
      else
        var id := db.nextId;
        var drawn := db.(nextId := id + 1);
        if EmailTaken(db.rows, g.email, None) then (drawn, Failure(UniqueViolation()))
        else
          var u := User(id, g.name, g.email, now, now);
          assert Valid(db) ==> Valid(Store(db.rows[id := u], id + 1)) by {
            if Valid(db) { InsertKeepsValid(db, u); }
          }
          (drawn.(rows := db.rows[id := u]), Success(u))
  }

  /** `SELECT * FROM users WHERE id = $1`: the row, if any. */
  function FindById(db: Store, param: string): (r: Result<Option<User>, Err>)
    ensures r.Failure? <==> ParseInt4(param).Failure?
    ensures r.Success? ==> (r.value.Some? <==> ParseInt4(param).value in db.rows)
    ensures r.Success? && r.value.Some? ==> r.value.value == db.rows[ParseInt4(param).value]
  {
    var n :- ParseInt4(param);
    if n in db.rows then Success(Some(db.rows[n])) else Success(None)
  }

  /**
   * `UPDATE ... SET name, email, updated_at = now WHERE id = $3 RETURNING *`:
   * a bad id parameter fails first, then a value too long for its column;
   * otherwise no row when nothing matches, and a unique-constraint error
   * when the new email belongs to another row.
   */
  function Update(db: Store, param: string, f: Fields, now: string): (r: (Store, Result<Option<User>, Err>))
    ensures Valid(db) ==> Valid(r.0)
    ensures r.0.nextId == db.nextId
    ensures r.1.Failure? ==> r.0 == db
    ensures r.1.Failure? <==>
      ParseInt4(param).Failure? || ColumnValues(f).Failure? ||
      (ParseInt4(param).value in db.rows && EmailTaken(db.rows, ColumnValues(f).value.email, Some(ParseInt4(param).value)))
    ensures ParseInt4(param).Success? && ColumnValues(f).Failure? ==> r.1 == Failure(TooLong())
    ensures r.1.Success? && r.1.value.None? ==> r.0 == db && ParseInt4(param).Success? && ParseInt4(param).value !in db.rows
    ensures r.1.Success? && r.1.value.Some? ==>
      && ParseInt4(param).Success?
      && ColumnValues(f).Success?
      && var n := ParseInt4(param).value;
      && var g := ColumnValues(f).value;
      && n in db.rows
      && r.1.value.value == db.rows[n].(name := g.name, email := g.email, updatedAt := now)
      && r.0.rows == db.rows[n := r.1.value.value]
  {
    match ParseInt4(param)
    case Failure(e) => (db, Failure(e))
    case Success(n) =>
      match ColumnValues(f)
      case Failure(e) => (db, Failure(e))
      case Success(g) =>
        if n !in db.rows then (db, Success(None))
        else if EmailTaken(db.rows, g.email, Some(n)) then (db, Failure(UniqueViolation()))
        else
          var u := db.rows[n].(name := g.name, email := g.email, updatedAt := now);
          assert Valid(db) ==> Valid(db.(rows := db.rows[n := u])) by {
            if Valid(db) { ReplaceKeepsValid(db, n, u); }
          }
          (db.(rows := db.rows[n := u]), Success(Some(u)))
  }

  /** `DELETE ... WHERE id = $1 RETURNING *`: the removed row, if any. */
  function Delete(db: Store, param: string): (r: (Store, Result<Option<User>, Err>))
    ensures Valid(db) ==> Valid(r.0)
    ensures r.0.nextId == db.nextId
    ensures r.1.Failure? <==> ParseInt4(param).Failure?
    ensures r.1.Success? && r.1.value.None? ==> r.0 == db && ParseInt4(param).value !in db.rows
    ensures r.1.Success? && r.1.value.Some? ==>
      && var n := ParseInt4(param).value;
      && n in db.rows
      && r.1.value.value == db.rows[n]
      && r.0.rows == db.rows - {n}
    ensures r.1.Failure? ==> r.0 == db
  {
    match ParseInt4(param)
    case Failure(e) => (db, Failure(e))
    case Success(n) =>
      if n !in db.rows then (db, Success(None))
      else (db.(rows := db.rows - {n}), Success(Some(db.rows[n])))
  }

  /** The ids of `rows` in `[lo, hi)`. */
  ghost function IdsIn(rows: map<nat, User>, lo: nat, hi: nat): set<nat>
  {
    set id | id in rows && lo <= id < hi
  }

  /** The rows with ids in `[lo, hi)`, in ascending id order. */
  function RowsIn(rows: map<nat, User>, lo: nat, hi: nat): (r: seq<User>)
    ensures forall u :: u in r ==> u in rows.Values
    ensures forall id :: id in rows && lo <= id < hi ==> rows[id] in r
    decreases hi - lo
  {
    if hi <= lo then []
    else if lo in rows then [rows[lo]] + RowsIn(rows, lo + 1, hi)
    else RowsIn(rows, lo + 1, hi)
  }

  lemma {:induction false} RowsInLength(rows: map<nat, User>, lo: nat, hi: nat)
    ensures |RowsIn(rows, lo, hi)| == |IdsIn(rows, lo, hi)|
    decreases hi - lo
  {
    if hi <= lo {
      assert IdsIn(rows, lo, hi) == {};
    } else {
      RowsInLength(rows, lo + 1, hi);
      if lo in rows {
        assert IdsIn(rows, lo, hi) == {lo} + IdsIn(rows, lo + 1, hi);
      } else {
        assert IdsIn(rows, lo, hi) == IdsIn(rows, lo + 1, hi);
      }
    }
  }

  /** `SELECT * FROM users`: every row, each once (listed by ascending id). */
  function FindAll(db: Store): (r: seq<User>)
  {
    RowsIn(db.rows, 1, db.nextId)
  }

  /** The listing holds exactly the table's rows, as many as there are rows. */
  lemma FindAllIsTable(db: Store)
    ensures Valid(db) ==> forall u :: u in FindAll(db) <==> u in db.rows.Values
    ensures Valid(db) ==> |FindAll(db)| == |db.rows|
  {
    var r := FindAll(db);
    RowsInLength(db.rows, 1, db.nextId);
    if Valid(db) {
      forall u | u in db.rows.Values ensures u in r {
        var id :| id in db.rows && db.rows[id] == u;
      }
      assert IdsIn(db.rows, 1, db.nextId) == db.rows.Keys;
    }
  }
}

=== FILE: service.dfy ===
/**
 * The cache-aside user service: each operation is a transition on the pair
 * (store, cache) that returns a user, the list of users, or a thrown error,
 * together with the log of store and cache calls it made, in order.
 */
module Service {
  import opened Common
  import opened Decimal
  import opened Js
  import opened Records
  import opened UserJson
  import Repository
  import Cache

  /** The two pieces of state every operation reads and writes. */
  datatype World = World(db: Repository.Store, cache: Cache.Client)

  /** One call to the store or to the cache wrapper, in the order issued. */
  datatype Effect =
    | DbInsert
    | DbSelect(param: string)
    | DbUpdate(param: string)
    | DbDelete(param: string)
    | DbSelectAll
    | CacheGet(key: string)
    | CacheSet(key: string, expiry: Option<int>)
    | CacheDel(key: string)
  {
    predicate IsStoreCall() {
      DbInsert? || DbSelect? || DbUpdate? || DbDelete? || DbSelectAll?
    }
  }

  /** What an operation leaves behind: the new state, its return value or thrown error, its calls. */
  datatype Outcome<T> = Outcome(world: World, result: Result<T, Err>, effects: seq<Effect>)

  const NotFoundMessage: string := "User not found"

  /** Seconds a user read from the store stays cached. */
  const ReadTtl: int := 3600

  /** `new Error('User not found')`: a message and no `status` field. */
  function UserNotFound(): Err
  {
    Err(NotFoundMessage, None)
  }

  /** The cache key `user:${id}` for a store-assigned numeric id. */
  function IdKey(id: nat): string
  {
    "user:" + NatText(id)
  }

  /**
   * How an operation given a route parameter names its cache key.
   * `AsWritten` is the service's own choice, `user:${param}` with the raw
   * text; `Canonical` keys by the id the store reads from that text.
   */
  datatype Keying = AsWritten | Canonical

  function KeyFor(keying: Keying, param: string): string
  {
    match keying
    case AsWritten => "user:" + param
    case Canonical =>
      match Repository.ParseInt4(param)
      case Success(n) => if n >= 0 then IdKey(n) else "user:" + param
      case Failure(_) => "user:" + param
  }

  /** The error a failing cache call throws, as an operation result. */
  function CacheFailure<T>(s: Cache.Step<T>): Result<(), Err>
  {
    if s.result.Failure? then Failure(Cache.ErrorOf(s.result.error)) else Success(())
  }

  /** `createUser`: insert into the store, then cache the new row under its id without expiry. */
  function CreateUser(w: World, data: Fields, now: string): (o: Outcome<User>)
    ensures |o.effects| > 0 && o.effects[0] == DbInsert
    ensures
      var g := Repository.ColumnValues(data);
      !w.cache.open ==>
        (o.result.Success? <==>
          g.Success? && w.db.nextId <= Repository.MaxInt4 && !Repository.EmailTaken(w.db.rows, g.value.email, None))
    ensures
      var c := Repository.Create(w.db, data, now).1;
      && (c.Failure? ==> o.result == Failure(c.error))
      && (c.Success? && w.cache.open ==> o.result == Failure(Cache.ErrorOf(Cache.SocketAlreadyOpen)))
    ensures Repository.Valid(w.db) ==> Repository.Valid(o.world.db)
    ensures Repository.Valid(w.db) && o.result.Success? ==> o.result.value.id !in w.db.rows
    ensures o.result.Success? ==>
      && var u := o.result.value;
      && Repository.ColumnValues(data) == Success(Fields(u.name, u.email))
      && u.createdAt == now && u.updatedAt == now
      && o.world.db.rows == w.db.rows[u.id := u]
      && o.effects == [DbInsert, CacheSet(IdKey(u.id), None)]
      && !o.world.cache.open
      && IdKey(u.id) in o.world.cache.data
      && o.world.cache.data[IdKey(u.id)] == Cache.Entry(EncodeUser(u), None)
      && o.world.cache.data - {IdKey(u.id)} == w.cache.data - {IdKey(u.id)}
    ensures o.effects == [DbInsert] ==> o.world.cache == w.cache && o.world.db.rows == w.db.rows
    ensures !w.cache.open && o.result.Failure? ==> o.effects == [DbInsert]
  {
    var (db1, created) := Repository.Create(w.db, data, now);
    match created
    case Failure(e) => Outcome(w.(db := db1), Failure(e), [DbInsert])
    case Success(u) =>
      var key := IdKey(u.id);
      var s := Cache.Set(w.cache, key, u, None);
      var r := CacheFailure(s);
      Outcome(World(db1, s.client), if r.Failure? then Failure(r.error) else Success(u), [DbInsert, CacheSet(key, None)])
  }

  /** The cache misses `key`: `get` succeeds and reads `null`. */
  predicate Misses(w: World, key: string)
  {
    !w.cache.open && Cache.Get(w.cache, key).result == Success(None)
  }

  /**
   * `getUser`: a cache hit is returned as it is; on a miss the store is
   * read, an absent row throws "User not found", and a present row is
   * cached for an hour and returned.
   */
  function GetUser(w: World, param: string, keying: Keying): (o: Outcome<User>)
    ensures o.world.db == w.db
    ensures |o.effects| > 0 && o.effects[0] == CacheGet(KeyFor(keying, param))
    ensures !Misses(w, KeyFor(keying, param)) ==> o.world == w
    ensures
      var got := Cache.Get(w.cache, KeyFor(keying, param)).result;
      got.Failure? ==> o.result == Failure(Cache.ErrorOf(got.error)) && o.effects == [CacheGet(KeyFor(keying, param))]
    ensures
      var key := KeyFor(keying, param);
      var hit := Cache.Get(w.cache, key).result;
      !w.cache.open && hit.Success? && hit.value.Some? ==>
        o == Outcome(w, Success(hit.value.value), [CacheGet(key)])
    ensures
      var key := KeyFor(keying, param);
      Misses(w, key) && Repository.FindById(w.db, param) == Success(None) ==>
        o == Outcome(w, Failure(UserNotFound()), [CacheGet(key), DbSelect(param)])
    ensures
      var key := KeyFor(keying, param);
      Misses(w, key) && Repository.FindById(w.db, param).Failure? ==>
        o == Outcome(w, Failure(Repository.FindById(w.db, param).error), [CacheGet(key), DbSelect(param)])
    ensures
      var key := KeyFor(keying, param);
      var found := Repository.FindById(w.db, param);
      Misses(w, key) && found.Success? && found.value.Some? ==>
        && o.result == Success(found.value.value)
        && o.effects == [CacheGet(key), DbSelect(param), CacheSet(key, Some(ReadTtl))]
        && !o.world.cache.open
        && o.world.cache.data == w.cache.data[key := Cache.Entry(EncodeUser(found.value.value), Some(ReadTtl))]
  {
    var key := KeyFor(keying, param);
    var got := Cache.Get(w.cache, key);
    var w1 := w.(cache := got.client);
    match got.result
    case Failure(e) => Outcome(w1, Failure(Cache.ErrorOf(e)), [CacheGet(key)])
    case Success(Some(u)) => Outcome(w1, Success(u), [CacheGet(key)])
    case Success(None) =>
      match Repository.FindById(w.db, param)
      case Failure(e) => Outcome(w1, Failure(e), [CacheGet(key), DbSelect(param)])
      case Success(None) => Outcome(w1, Failure(UserNotFound()), [CacheGet(key), DbSelect(param)])
      case Success(Some(u)) =>
        // The `get` above closed the connection again, so this `set` cannot fail.
        var s := Cache.Set(w1.cache, key, u, Some(ReadTtl));
        Outcome(w1.(cache := s.client), Success(u), [CacheGet(key), DbSelect(param), CacheSet(key, Some(ReadTtl))])
  }

  /**
   * `updateUser`: update the store; no matching row throws "User not found"
   * and leaves the cache alone, otherwise the updated row is cached without
   * expiry.
   */
  function UpdateUser(w: World, param: string, data: Fields, now: string, keying: Keying): (o: Outcome<User>)
    ensures |o.effects| > 0 && o.effects[0] == DbUpdate(param)
    ensures Repository.Valid(w.db) ==> Repository.Valid(o.world.db)
    ensures o.result == Failure(UserNotFound()) ==>
      o.world == w && o.effects == [DbUpdate(param)]
    ensures o.effects == [DbUpdate(param)] ==> o.world == w
    ensures
      var n := Repository.ParseInt4(param);
      n.Success? && Repository.ColumnValues(data).Success? && n.value !in w.db.rows ==>
        o == Outcome(w, Failure(UserNotFound()), [DbUpdate(param)])
    ensures o.result.Success? ==>
      && var u := o.result.value;
      && var key := KeyFor(keying, param);
      && Repository.ParseInt4(param).Success?
      && var n := Repository.ParseInt4(param).value;
      && n in w.db.rows
      && Repository.ColumnValues(data).Success?
      && var g := Repository.ColumnValues(data).value;
      && u == w.db.rows[n].(name := g.name, email := g.email, updatedAt := now)
      && o.world.db.rows == w.db.rows[n := u]
      && o.effects == [DbUpdate(param), CacheSet(key, None)]
      && !o.world.cache.open
      && o.world.cache.data == w.cache.data[key := Cache.Entry(EncodeUser(u), None)]
    ensures !w.cache.open && o.result.Failure? ==> o.world == w
    ensures
      var n := Repository.ParseInt4(param);
      var g := Repository.ColumnValues(data);
      !w.cache.open ==>
        (o.result.Success? <==>
          n.Success? && g.Success? && n.value in w.db.rows && !Repository.EmailTaken(w.db.rows, g.value.email, Some(n.value)))
    ensures
      var updated := Repository.Update(w.db, param, data, now).1;
      && (updated.Failure? ==> o.result == Failure(updated.error))
      && (updated.Success? && updated.value.Some? && w.cache.open ==> o.result == Failure(Cache.ErrorOf(Cache.SocketAlreadyOpen)))
  {
    var (db1, updated) := Repository.Update(w.db, param, data, now);
    match updated
    case Failure(e) => Outcome(w.(db := db1), Failure(e), [DbUpdate(param)])
    case Success(None) => Outcome(w.(db := db1), Failure(UserNotFound()), [DbUpdate(param)])
    case Success(Some(u)) =>
      var key := KeyFor(keying, param);
      var s := Cache.Set(w.cache, key, u, None);
      var r := CacheFailure(s);
      Outcome(World(db1, s.client), if r.Failure? then Failure(r.error) else Success(u), [DbUpdate(param), CacheSet(key, None)])
  }

  /**
   * `deleteUser`: delete from the store; no matching row throws "User not
   * found" and leaves the cache alone, otherwise the key is invalidated
   * after the store delete and the removed row is returned.
   */
  function DeleteUser(w: World, param: string, keying: Keying): (o: Outcome<User>)
    ensures |o.effects| > 0 && o.effects[0] == DbDelete(param)
    ensures Repository.Valid(w.db) ==> Repository.Valid(o.world.db)
    ensures o.effects == [DbDelete(param)] ==> o.world == w
    ensures
      var n := Repository.ParseInt4(param);
      n.Success? && n.value !in w.db.rows ==> o == Outcome(w, Failure(UserNotFound()), [DbDelete(param)])
    ensures o.result.Success? ==>
      && var key := KeyFor(keying, param);
      && Repository.ParseInt4(param).Success?
      && var n := Repository.ParseInt4(param).value;
      && n in w.db.rows
      && o.result.value == w.db.rows[n]
      && o.world.db.rows == w.db.rows - {n}
      && o.effects == [DbDelete(param), CacheDel(key)]
      && !o.world.cache.open
      && o.world.cache.data == w.cache.data - {key}
    ensures !w.cache.open ==> (o.result.Success? <==> o.effects != [DbDelete(param)])
    ensures !w.cache.open && o.result.Failure? ==> o.world == w
    ensures
      var n := Repository.ParseInt4(param);
      !w.cache.open ==> (o.result.Success? <==> n.Success? && n.value in w.db.rows)
    ensures
      var deleted := Repository.Delete(w.db, param).1;
      && (deleted.Failure? ==> o.result == Failure(deleted.error))
      && (deleted.Success? && deleted.value.Some? && w.cache.open ==> o.result == Failure(Cache.ErrorOf(Cache.SocketAlreadyOpen)))
  {
    var (db1, deleted) := Repository.Delete(w.db, param);
    match deleted
    case Failure(e) => Outcome(w.(db := db1), Failure(e), [DbDelete(param)])
    case Success(None) => Outcome(w.(db := db1), Failure(UserNotFound()), [DbDelete(param)])
    case Success(Some(row)) =>
      var key := KeyFor(keying, param);
      var s := Cache.Del(w.cache, key);
      var r := CacheFailure(s);
      Outcome(World(db1, s.client), if r.Failure? then Failure(r.error) else Success(row), [DbDelete(param), CacheDel(key)])
  }

  /** `getAllUsers`: the store's full listing; the cache is not consulted. */
  function GetAllUsers(w: World): (o: Outcome<seq<User>>)
    ensures o.world == w
    ensures o.effects == [DbSelectAll]
    ensures o.result.Success?
    ensures Repository.Valid(w.db) ==>
      (forall u :: u in o.result.value <==> u in w.db.rows.Values) && |o.result.value| == |w.db.rows|
  {
    Repository.FindAllIsTable(w.db);
    Outcome(w, Success(Repository.FindAll(w.db)), [DbSelectAll])
  }
}

=== FILE: span.dfy ===
/**
 * A tracing span as the core drives it: attributes, events, status,
 * recorded exceptions and the number of times `end()` was called. Every
 * call is recorded as made, including calls after the first `end()`.
 */
module Span {
  import opened Js

  datatype AttrValue = Str(s: string) | Num(n: int)

  datatype Event = Event(name: string, attrs: map<string, AttrValue>)

  /** The span status; the core only ever sets `ERROR`, with a message. */
  datatype Status = StatusUnset | StatusOk | StatusError(message: string)

  datatype Span = Span(
    name: string,
    attrs: map<string, AttrValue>,
    events: seq<Event>,
    status: Status,
    exceptions: seq<Err>,
    ends: nat)

  // Semantic-convention attribute names.
  const HttpMethod: string := "http.method"
  const HttpRoute: string := "http.route"
  const HttpUrl: string := "http.url"
  const HttpHost: string := "http.host"
  const HttpStatusCode: string := "http.status_code"

  /** A fresh span: no attributes, no events, status unset, not ended. */
  function Start(name: string): (s: Span)
    ensures s.name == name && s.attrs == map[] && s.events == [] && s.status == StatusUnset
    ensures s.exceptions == [] && s.ends == 0
  {
    Span(name, map[], [], StatusUnset, [], 0)
  }

  function SetAttribute(s: Span, key: string, value: AttrValue): Span
  {
    s.(attrs := s.attrs[key := value])
  }

  function AddEvent(s: Span, name: string, attrs: map<string, AttrValue>): Span
  {
    s.(events := s.events + [Event(name, attrs)])
  }

  function SetError(s: Span, message: string): Span
  {
    s.(status := StatusError(message))
  }

  function RecordException(s: Span, e: Err): Span
  {
    s.(exceptions := s.exceptions + [e])
  }

  function End(s: Span): Span
  {
    s.(ends := s.ends + 1)
  }

  /**
   * The pair every catch block issues: status `ERROR` with the error's
   * message, then the exception; nothing else about the span changes.
   */
  function MarkFailed(s: Span, e: Err): (r: Span)
    ensures r.status == StatusError(e.message)
    ensures r.exceptions == s.exceptions + [e]
    ensures r.name == s.name && r.attrs == s.attrs && r.events == s.events && r.ends == s.ends
  {
    RecordException(SetError(s, e.message), e)
  }
}

/** The HTTP responses and control transfers the core produces. */
module Http {
  import opened Js
  import opened Records

  /** One entry of express-validator's error array: the field and the rule's message. */
  datatype FieldError = FieldError(path: string, msg: string)

  /** A JSON response body. */
  datatype Body =
    | UserBody(user: User)
    | UsersBody(users: seq<User>)
    | ErrorBody(message: string)
    | ValidationBody(errors: seq<FieldError>)
    | NoBody

  datatype Response = Response(status: int, body: Body)

  /** What a handler does: send a response, call `next()`, or call `next(err)`. */
  datatype Reply = Send(response: Response) | Next | NextError(err: Err)

  /** `res.json` without `res.status`: Express's default status. */
  const DefaultStatus: int := 200
}

=== FILE: tracing.dfy ===
/**
 * The tracing middleware as an event-driven state machine. Setup starts a
 * span named after the request, sets the standard attributes, replaces
 * `res.end`, attaches a one-shot error listener, calls `next()`, and then
 * attaches a one-shot finish listener that detaches the error listener.
 * The response then delivers `end`, `error` and `finish` events in any
 * order. The middleware guards nothing against an error event followed by
 * `res.end`, so the span's end count is the number of terminal events that
 * fired, not always one.
 */
module Tracing {
  import opened Common
  import opened Js
  import opened Span

  /** The parts of the request the middleware reads; `verb` is `req.method`. */
  datatype Request = Request(verb: string, route: Option<string>, path: string, url: string, hostname: string)

  /** How far setup got before it threw. */
  datatype SetupStage =
    | BeforeEndWrapped     // attributes set, `res.end` not replaced yet
    | BeforeErrorListener  // `res.end` replaced, no error listener yet
    | InNext               // error listener attached, `next()` called and threw

  datatype Setup = SetupOk | SetupThrows(err: Err, stage: SetupStage)

  /** What the response emits after setup: a call of `res.end(...args)`, an `error` event, a `finish` event. */
  datatype ResEvent = ResEnd(statusCode: int, args: seq<string>) | ResError(err: Err) | ResFinish

  /**
   * The span, which interceptors are in place, the argument lists the
   * original `res.end` was called with, and the calls of `next`.
   */
  datatype State = State(
    span: Span,
    endWrapped: bool,
    errorListener: bool,
    finishListener: bool,
    originalEnds: seq<seq<string>>,
    nextCalls: seq<Option<Err>>)

  /** The matched route template if there is one, else the raw path. */
  function RoutePath(req: Request): string
  {
    match req.route
    case Some(template) => template
    case None => req.path
  }

  function StandardAttributes(req: Request): map<string, AttrValue>
  {
    map[HttpMethod := Str(req.verb), HttpRoute := Str(RoutePath(req)), HttpUrl := Str(req.url), HttpHost := Str(req.hostname)]
  }

  /** `tracingMiddleware(req, res, next)` up to the point it returns. */
  function Begin(req: Request, setup: Setup): (st: State)
    ensures st.span.name == req.verb + " " + RoutePath(req)
    ensures st.span.attrs == StandardAttributes(req)
    ensures st.originalEnds == []
    ensures setup == SetupOk ==>
      && st.endWrapped && st.errorListener && st.finishListener
      && st.nextCalls == [None]
      && st.span.ends == 0 && st.span.status == StatusUnset && st.span.exceptions == [] && st.span.events == []
    ensures setup.SetupThrows? ==>
      && st.span.status == StatusError(setup.err.message)
      && st.span.exceptions == [setup.err]
      && st.span.ends == 1
      && st.span.events == []
      && !st.finishListener
      && st.nextCalls == (if setup.stage == InNext then [None, Some(setup.err)] else [Some(setup.err)])
      && (st.endWrapped <==> setup.stage != BeforeEndWrapped)
      && (st.errorListener <==> setup.stage == InNext)
  {
    var s := Start(req.verb + " " + RoutePath(req));
    var s := SetAttribute(s, HttpMethod, Str(req.verb));
    var s := SetAttribute(s, HttpRoute, Str(RoutePath(req)));
    var s := SetAttribute(s, HttpUrl, Str(req.url));
    var s := SetAttribute(s, HttpHost, Str(req.hostname));
    match setup
    case SetupOk => State(s, true, true, true, [], [None])
    case SetupThrows(e, stage) =>
      var failed := End(MarkFailed(s, e));
      match stage
      case BeforeEndWrapped => State(failed, false, false, false, [], [Some(e)])
      case BeforeErrorListener => State(failed, true, false, false, [], [Some(e)])
      case InNext => State(failed, true, true, false, [], [None, Some(e)])
  }

  /** One response event, handled by whichever interceptors are in place. */
  function Step(st: State, ev: ResEvent): (r: State)
    ensures r.endWrapped == st.endWrapped && r.nextCalls == st.nextCalls
    ensures ev.ResEnd? ==> r == st.(span := r.span, originalEnds := st.originalEnds + [ev.args])
    ensures ev.ResEnd? && st.endWrapped ==>
      && r.span == End(st.span).(attrs := st.span.attrs[HttpStatusCode := Num(ev.statusCode)])
    ensures ev.ResEnd? && !st.endWrapped ==> r.span == st.span
    ensures ev.ResError? && st.errorListener ==>
      && r == st.(span := r.span, errorListener := false)
      && r.span == st.span.(status := StatusError(ev.err.message),
                            exceptions := st.span.exceptions + [ev.err],
                            ends := st.span.ends + 1)
    ensures ev.ResError? && !st.errorListener ==> r == st
    ensures ev.ResFinish? && st.finishListener ==> r == st.(errorListener := false, finishListener := false)
    ensures ev.ResFinish? && !st.finishListener ==> r == st
  {
    match ev
    case ResEnd(code, args) =>
      if st.endWrapped then
        st.(span := End(SetAttribute(st.span, HttpStatusCode, Num(code))), originalEnds := st.originalEnds + [args])
      else
        st.(originalEnds := st.originalEnds + [args])
    case ResError(e) =>
      if st.errorListener then st.(span := End(MarkFailed(st.span, e)), errorListener := false) else st
    case ResFinish =>
      if st.finishListener then st.(errorListener := false, finishListener := false) else st
  }

  function Run(st: State, evs: seq<ResEvent>): State
    decreases |evs|
  {
    if |evs| == 0 then st else Run(Step(st, evs[0]), evs[1..])
  }

  /** The number of `res.end` calls among the events. */
  function CountEnds(evs: seq<ResEvent>): nat
    decreases |evs|
  {
    if |evs| == 0 then 0 else (if evs[0].ResEnd? then 1 else 0) + CountEnds(evs[1..])
  }

  /**
   * Whether an error event arrives while the one-shot error listener is
   * still attached: before the first `finish`, when a finish listener will
   * detach it.
   */
  predicate ErrorArrives(evs: seq<ResEvent>, finishDetaches: bool)
    decreases |evs|
  {
    if |evs| == 0 then false
    else if evs[0].ResError? then true
    else if evs[0].ResFinish? && finishDetaches then false
    else ErrorArrives(evs[1..], finishDetaches)
  }

  /**
   * The span is ended once per terminal event that fired: each `res.end`
   * through the wrapper, plus the error listener if an error reached it.
   */
  lemma {:induction false} EndsCountTerminalEvents(st: State, evs: seq<ResEvent>)
    ensures Run(st, evs).span.ends ==
      st.span.ends
      + (if st.endWrapped then CountEnds(evs) else 0)
      + (if st.errorListener && ErrorArrives(evs, st.finishListener) then 1 else 0)
    decreases |evs|
  {
    if |evs| > 0 {
      var st1 := Step(st, evs[0]);
      EndsCountTerminalEvents(st1, evs[1..]);
    }
  }

  /** The argument lists of the `res.end` calls among the events, in order. */
  function EndArgs(evs: seq<ResEvent>): seq<seq<string>>
    decreases |evs|
  {
    if |evs| == 0 then [] else (if evs[0].ResEnd? then [evs[0].args] else []) + EndArgs(evs[1..])
  }

  /** The original `end` sees every call, in order and with the same arguments, whatever the interceptors. */
  lemma {:induction false} EveryEndForwarded(st: State, evs: seq<ResEvent>)
    ensures Run(st, evs).originalEnds == st.originalEnds + EndArgs(evs)
    decreases |evs|
  {
    if |evs| > 0 {
      var st1 := Step(st, evs[0]);
      EveryEndForwarded(st1, evs[1..]);
      assert st1.originalEnds == st.originalEnds + (if evs[0].ResEnd? then [evs[0].args] else []);
      assert st.originalEnds + (if evs[0].ResEnd? then [evs[0].args] else []) + EndArgs(evs[1..])
          == st.originalEnds + EndArgs(evs);
    }
  }

  /**
   * The end count of a whole request: one for a setup failure, one per
   * wrapped `res.end`, one if the error listener fired.
   */
  lemma RequestEnds(req: Request, setup: Setup, evs: seq<ResEvent>)
    ensures Run(Begin(req, setup), evs).span.ends ==
      (if setup.SetupThrows? then 1 else 0)
      + (if setup == SetupOk || setup.stage != BeforeEndWrapped then CountEnds(evs) else 0)
      + (if (setup == SetupOk || setup.stage == InNext) && ErrorArrives(evs, setup == SetupOk) then 1 else 0)
  {
    EndsCountTerminalEvents(Begin(req, setup), evs);
  }

  /** An error event followed by `res.end` ends the span twice. */
  lemma ErrorThenEndEndsTwice(req: Request, e: Err, code: int, args: seq<string>)
    ensures Run(Begin(req, SetupOk), [ResError(e), ResEnd(code, args)]).span.ends == 2
  {
    var evs := [ResError(e), ResEnd(code, args)];
    RequestEnds(req, SetupOk, evs);
    assert CountEnds(evs[1..][1..]) == 0;
    assert CountEnds(evs) == 1;
    assert ErrorArrives(evs, true);
  }

  function ErrorsOnly(errs: seq<Err>): seq<ResEvent>
  {
    seq(|errs|, i requires 0 <= i < |errs| => ResError(errs[i]))
  }

  lemma {:induction false} ErrorsIgnoredWithoutListener(st: State, errs: seq<Err>)
    requires !st.errorListener
    ensures Run(st, ErrorsOnly(errs)) == st
    decreases |errs|
  {
    if |errs| > 0 {
      assert ErrorsOnly(errs)[1..] == ErrorsOnly(errs[1..]);
      ErrorsIgnoredWithoutListener(st, errs[1..]);
    }
  }

  lemma RunAppend(st: State, a: seq<ResEvent>, b: seq<ResEvent>)
    ensures Run(st, a + b) == Run(Run(st, a), b)
    decreases |a|
  {
    if |a| == 0 {
      assert a + b == b;
    } else {
      assert (a + b)[0] == a[0];
      assert (a + b)[1..] == a[1..] + b;
      RunAppend(Step(st, a[0]), a[1..], b);
    }
  }

  /**
   * A normal request: `res.end` then `finish` ends the span once with the
   * status code; error events after `finish` change nothing.
   */
  lemma NormalRequestEndsOnce(req: Request, code: int, args: seq<string>, later: seq<Err>)
    ensures
      var done := Run(Begin(req, SetupOk), [ResEnd(code, args), ResFinish]);
      && done.span.ends == 1
      && HttpStatusCode in done.span.attrs && done.span.attrs[HttpStatusCode] == Num(code)
      && done.span.status == StatusUnset
      && done.originalEnds == [args]
      && Run(Begin(req, SetupOk), [ResEnd(code, args), ResFinish] + ErrorsOnly(later)) == done
  {
    var st0 := Begin(req, SetupOk);
    var st1 := Step(st0, ResEnd(code, args));
    var done := Step(st1, ResFinish);
    assert [ResEnd(code, args), ResFinish][1..] == [ResFinish];
    assert Run(st0, [ResEnd(code, args), ResFinish]) == Run(st1, [ResFinish]);
    assert Run(st1, [ResFinish]) == Run(done, []);
    RunAppend(Begin(req, SetupOk), [ResEnd(code, args), ResFinish], ErrorsOnly(later));
    ErrorsIgnoredWithoutListener(done, later);
  }
}

=== FILE: userjson.dfy ===
/**
 * The JSON text `JSON.stringify` produces for a user row, and the part of
 * `JSON.parse` that reads such a text back.
 */
module UserJson {
  import opened Common
  import opened Decimal
  import opened Records

  function HexDigit(d: nat): (c: char)
    requires d < 16
  {
    if d < 10 then DigitChar(d) else (d - 10 + 97) as char
  }

  /** The value of a hexadecimal digit of either case. */
  function HexValue(c: char): (r: Option<nat>)
    ensures r.Some? ==> r.value < 16
  {
    if '0' <= c <= '9' then Some(c as int - 48)
    else if 'a' <= c <= 'f' then Some(c as int - 87)
    else if 'A' <= c <= 'F' then Some(c as int - 55)
    else None
  }

  lemma HexDigitValue(d: nat)
    requires d < 16
    ensures HexValue(HexDigit(d)) == Some(d)
  {
  }

  /** How `JSON.stringify` writes one character inside a string literal. */
  function EscapeChar(c: char): (e: string)
    ensures |e| > 0
  {
    if c == '"' then "\\\""
    else if c == '\\' then "\\\\"
    else if c as int == 8 then "\\b"
    else if c == '\t' then "\\t"
    else if c == '\n' then "\\n"
    else if c as int == 12 then "\\f"
    else if c == '\r' then "\\r"
    else if (c as int) < 32 then "\\u00" + [HexDigit(c as int / 16), HexDigit(c as int % 16)]
    else [c]
  }

  /** The body of the string literal `JSON.stringify` writes for `s`. */
  function Escape(s: string): string
    decreases |s|
  {
    if |s| == 0 then [] else EscapeChar(s[0]) + Escape(s[1..])
  }

  /** The character a one-letter escape `\x` stands for. */
  function UnescapeSingle(c: char): Option<char>
  {
    if c == '"' then Some('"')
    else if c == '\\' then Some('\\')
    else if c == '/' then Some('/')
    else if c == 'b' then Some(8 as char)
    else if c == 'f' then Some(12 as char)
    else if c == 'n' then Some('\n')
    else if c == 'r' then Some('\r')
    else if c == 't' then Some('\t')
    else None
  }

  /** The code point of a `\uXXXX` escape; surrogate halves are not read. */
  function CodeUnit(h: string): (r: Option<nat>)
    requires |h| == 4
    ensures r.Some? ==> r.value < 0xD800 || 0xE000 <= r.value < 0x10000
  {
    var a :- HexValue(h[0]);
    var b :- HexValue(h[1]);
    var c :- HexValue(h[2]);
    var d :- HexValue(h[3]);
    var v := 4096 * a + 256 * b + 16 * c + d;
    if 0xD800 <= v < 0xE000 then None else Some(v)
  }

  function Prepend(c: char, r: Option<(string, string)>): Option<(string, string)>
  {
    match r
    case None => None
    case Some(p) => Some(([c] + p.0, p.1))
  }

  /**
   * Reads a string literal whose opening quote is already consumed: the
   * decoded contents and the text after the closing quote.
   */
  function ParseStringBody(s: string): Option<(string, string)>
    decreases |s|
  {
    if |s| == 0 then None
    else if s[0] == '"' then Some(([], s[1..]))
    else if (s[0] as int) < 32 then None
    else if s[0] != '\\' then Prepend(s[0], ParseStringBody(s[1..]))
    else if |s| < 2 then None
    else if s[1] == 'u' then
      if |s| < 6 then None
      else match CodeUnit(s[2..6])
        case None => None
        case Some(v) => Prepend(v as char, ParseStringBody(s[6..]))
    else match UnescapeSingle(s[1])
      case None => None
      case Some(c) => Prepend(c, ParseStringBody(s[2..]))
  }

  /** One escaped character is read back as itself, whatever follows it. */
  lemma EscapeCharParses(c: char, tail: string)
    ensures ParseStringBody(EscapeChar(c) + tail) == Prepend(c, ParseStringBody(tail))
  {
    var s := EscapeChar(c) + tail;
    if c == '"' || c == '\\' || c as int == 8 || c == '\t' || c == '\n' || c as int == 12 || c == '\r' {
      assert s[2..] == tail;
    } else if (c as int) < 32 {
      var hi, lo := c as int / 16, c as int % 16;
      HexDigitValue(hi);
      HexDigitValue(lo);
      var e := EscapeChar(c);
      assert e == "\\u00" + [HexDigit(hi), HexDigit(lo)];
      assert |e| == 6 && e[2] == '0' && e[3] == '0' && e[4] == HexDigit(hi) && e[5] == HexDigit(lo);
      assert s[..6] == e;
      assert s[2..6] == ['0', '0', HexDigit(hi), HexDigit(lo)];
      assert s[6..] == tail;
      assert (4096 * 0 + 256 * 0 + 16 * hi + lo) as char == c;
    } else {
      assert s[1..] == tail;
    }
  }

  /** The string-literal body `Escape` writes reads back as the original string. */
  lemma {:induction false} ParseEscaped(x: string, rest: string)
    ensures ParseStringBody(Escape(x) + ("\"" + rest)) == Some((x, rest))
    decreases |x|
  {
    if |x| == 0 {
      assert Escape(x) + ("\"" + rest) == "\"" + rest;
    } else {
      var tail := Escape(x[1..]) + ("\"" + rest);
      ParseEscaped(x[1..], rest);
      assert Escape(x) + ("\"" + rest) == EscapeChar(x[0]) + tail;
      EscapeCharParses(x[0], tail);
      assert [x[0]] + x[1..] == x;
    }
  }

  /** The rest of `s` after the literal `lit`, if `s` starts with it. */
  function Expect(lit: string, s: string): (r: Option<string>)
    ensures r.Some? ==> s == lit + r.value
  {
    if |lit| <= |s| && s[..|lit|] == lit then Some(s[|lit|..]) else None
  }

  lemma ExpectLiteral(lit: string, rest: string)
    ensures Expect(lit, lit + rest) == Some(rest)
  {
    assert (lit + rest)[..|lit|] == lit;
    assert (lit + rest)[|lit|..] == rest;
  }

  /** A JSON non-negative integer: digits with no superfluous leading zero. */
  function ParseNumber(s: string): Option<(nat, string)>
  {
    var k := DigitRun(s);
    if k == 0 || (k > 1 && s[0] == '0') then None
    else Some((DigitsValue(s[..k]), s[k..]))
  }

  lemma ParseNatText(n: nat, rest: string)
    requires rest == [] || !IsDigit(rest[0])
    ensures ParseNumber(NatText(n) + rest) == Some((n, rest))
  {
    var t := NatText(n);
    DigitRunOfAppend(t, rest);
    assert (t + rest)[..|t|] == t;
    assert (t + rest)[|t|..] == rest;
    DigitsValueOfNatText(n);
  }

  /** A quoted JSON string literal for `s`, followed by `rest`. */
  function Quote(s: string, rest: string): string
  {
    "\"" + (Escape(s) + ("\"" + rest))
  }

  function ParseString(s: string): Option<(string, string)>
  {
    var r :- Expect("\"", s);
    ParseStringBody(r)
  }

  lemma ParseQuote(x: string, rest: string)
    ensures ParseString(Quote(x, rest)) == Some((x, rest))
  {
    ExpectLiteral("\"", Escape(x) + ("\"" + rest));
    ParseEscaped(x, rest);
  }

  // The fixed text between the columns of a stored row.
  const IdField: string := "{\"id\":"
  const NameField: string := ",\"name\":"
  const EmailField: string := ",\"email\":"
  const CreatedField: string := ",\"created_at\":"
  const UpdatedField: string := ",\"updated_at\":"
  const ObjectEnd: string := "}"

  /**
   * `JSON.stringify(user)`: the columns in table order, `id` as a number,
   * every other column as a string literal, no white space.
   */
  function EncodeUser(u: User): string
  {
    IdField + (NatText(u.id) + (NameField + Quote(u.name,
      EmailField + Quote(u.email,
      CreatedField + Quote(u.createdAt,
      UpdatedField + Quote(u.updatedAt, ObjectEnd))))))
  }

  /** Reads a text of the shape `EncodeUser` writes; `None` where `JSON.parse` would throw or yield another shape. */
  function DecodeUser(s: string): Option<User>
  {
    var r0 :- Expect(IdField, s);
    var p1 :- ParseNumber(r0);
    var r1 :- Expect(NameField, p1.1);
    var p2 :- ParseString(r1);
    var r2 :- Expect(EmailField, p2.1);
    var p3 :- ParseString(r2);
    var r3 :- Expect(CreatedField, p3.1);
    var p4 :- ParseString(r3);
    var r4 :- Expect(UpdatedField, p4.1);
    var p5 :- ParseString(r4);
    var r5 :- Expect(ObjectEnd, p5.1);
    if r5 == [] then Some(User(p1.0, p2.0, p3.0, p4.0, p5.0)) else None
  }

  /** Decoding the stored text of a user gives back the same user. */
  lemma DecodeEncodeUser(u: User)
    ensures DecodeUser(EncodeUser(u)) == Some(u)
  {
    var t5 := ObjectEnd;
    var t4 := UpdatedField + Quote(u.updatedAt, t5);
    var t3 := CreatedField + Quote(u.createdAt, t4);
    var t2 := EmailField + Quote(u.email, t3);
    var t1 := NameField + Quote(u.name, t2);
    ExpectLiteral(IdField, NatText(u.id) + t1);
    ParseNatText(u.id, t1);
    ExpectLiteral(NameField, Quote(u.name, t2));
    ParseQuote(u.name, t2);
    ExpectLiteral(EmailField, Quote(u.email, t3));
    ParseQuote(u.email, t3);
    ExpectLiteral(CreatedField, Quote(u.createdAt, t4));
    ParseQuote(u.createdAt, t4);
    ExpectLiteral(UpdatedField, Quote(u.updatedAt, t5));
    ParseQuote(u.updatedAt, t5);
    ExpectLiteral(ObjectEnd, []);
    assert t5 + [] == t5;
  }

  /** The stored text is never empty, so a present entry always reads as a hit. */
  lemma EncodeUserNonEmpty(u: User)
    ensures EncodeUser(u) != []
  {
    assert EncodeUser(u)[0] == '{';
  }

  /** Two users with the same stored text are the same user. */
  lemma EncodeUserInjective(u: User, v: User)
    requires EncodeUser(u) == EncodeUser(v)
    ensures u == v
  {
    DecodeEncodeUser(u);
    DecodeEncodeUser(v);
  }
}

=== FILE: validation.dfy ===
/**
 * The request-validation gate on create and update: the two field rules,
 * and the final step that turns the failed rules into a 400 response or
 * passes control on. Whether a text is an email address is left to the
 * caller as a boolean.
 */
module Validation {
  import opened Common
  import opened Js
  import opened Span
  import opened Http

  const NameRequired: string := "Name is required"
  const EmailRequired: string := "Valid email is required"
  const PathAttr: string := "app.validation.path"
  const ErrorsAttr: string := "app.validation.errors"
  const ValidationSucceeded: string := "Validation succeeded"
  const FailedPrefix: string := "Validation failed: "

  /**
   * The failed rules in declaration order: the name rule (not empty) first,
   * then the email rule.
   */
  function RuleErrors(name: string, email: string, isEmail: bool): (errs: seq<FieldError>)
    ensures (FieldError("name", NameRequired) in errs) <==> name == ""
    ensures (FieldError("email", EmailRequired) in errs) <==> !isEmail
    ensures forall i :: 0 <= i < |errs| ==> errs[i] == FieldError("name", NameRequired) || errs[i] == FieldError("email", EmailRequired)
    ensures |errs| == 2 ==> errs[0].path == "name" && errs[1].path == "email"
    ensures |errs| == (if name == "" then 1 else 0) + (if isEmail then 0 else 1)
    ensures errs == [] <==> name != "" && isEmail
  {
    (if name == "" then [FieldError("name", NameRequired)] else [])
    + (if !isEmail then [FieldError("email", EmailRequired)] else [])
  }

  function Messages(errs: seq<FieldError>): (ms: seq<string>)
    ensures |ms| == |errs|
    ensures forall i :: 0 <= i < |errs| ==> ms[i] == errs[i].msg
  {
    seq(|errs|, i requires 0 <= i < |errs| => errs[i].msg)
  }

  /** `Array.prototype.join(sep)`. */
  function Join(parts: seq<string>, sep: string): string
    decreases |parts|
  {
    if |parts| == 0 then ""
    else if |parts| == 1 then parts[0]
    else parts[0] + sep + Join(parts[1..], sep)
  }

  /** Where the gate leaves the span (if any) and what it does with the request. */
  datatype Gated = Gated(span: Option<Span>, reply: Reply)

  /**
   * The final validation step: the request URL as attribute; failed rules
   * give status ERROR, the joined messages as attribute, and a 400 with the
   * error array, without `next`; no failed rule gives the success event
   * and `next()`. An exception thrown while reading the rule results
   * (`thrown`) is recorded on the span and forwarded with `next(err)`.
   * Every span write happens only when a span is active.
   */
  function Gate(span: Option<Span>, url: string, errs: seq<FieldError>, thrown: Option<Err>): (g: Gated)
    ensures span.None? <==> g.span.None?
    ensures span.Some? ==> PathAttr in g.span.value.attrs && g.span.value.attrs[PathAttr] == Str(url)
    ensures span.Some? ==> g.span.value.name == span.value.name && g.span.value.ends == span.value.ends
    ensures span.Some? && thrown.None? ==> g.span.value.exceptions == span.value.exceptions
    ensures thrown.Some? ==> g.reply == NextError(thrown.value)
    ensures thrown.Some? && span.Some? ==>
      && g.span.value.status == StatusError(thrown.value.message)
      && g.span.value.exceptions == span.value.exceptions + [thrown.value]
      && g.span.value.attrs == span.value.attrs[PathAttr := Str(url)]
      && g.span.value.events == span.value.events
    ensures thrown.None? && errs != [] ==> g.reply == Send(Response(400, ValidationBody(errs)))
    ensures thrown.None? && errs != [] && span.Some? ==>
      && g.span.value.status == StatusError(FailedPrefix + Join(Messages(errs), ", "))
      && g.span.value.attrs == span.value.attrs[PathAttr := Str(url)][ErrorsAttr := Str(Join(Messages(errs), ", "))]
      && g.span.value.events == span.value.events
    ensures thrown.None? && errs == [] ==> g.reply == Next
    ensures thrown.None? && errs == [] && span.Some? ==>
      && g.span.value.events == span.value.events + [Event(ValidationSucceeded, map[])]
      && g.span.value.status == span.value.status
      && g.span.value.attrs == span.value.attrs[PathAttr := Str(url)]
  {
    var tagged := match span case None => None case Some(s) => Some(SetAttribute(s, PathAttr, Str(url)));
    match thrown
    case Some(e) =>
      Gated(match tagged case None => None case Some(s) => Some(MarkFailed(s, e)), NextError(e))
    case None =>
      if errs != [] then
        var joined := Join(Messages(errs), ", ");
        var failed := match tagged case None => None case Some(s) => Some(SetAttribute(SetError(s, FailedPrefix + joined), ErrorsAttr, Str(joined)));
        Gated(failed, Send(Response(400, ValidationBody(errs))))
      else
        Gated(match tagged case None => None case Some(s) => Some(AddEvent(s, ValidationSucceeded, map[])), Next)
  }

  /** Whether a span is active never changes what the gate does with the request. */
  lemma ReplyIgnoresSpan(s: Span, url: string, errs: seq<FieldError>, thrown: Option<Err>)
    ensures Gate(None, url, errs, thrown).reply == Gate(Some(s), url, errs, thrown).reply
  {
  }

  /**
   * The gate passes a request on exactly when its name is not empty and its
   * email is an address; otherwise it answers 400 with the failed rules.
   */
  lemma GateOnRules(span: Option<Span>, url: string, name: string, email: string, isEmail: bool)
    ensures var g := Gate(span, url, RuleErrors(name, email, isEmail), None);
      && (g.reply == Next <==> name != "" && isEmail)
      && (g.reply != Next ==> g.reply == Send(Response(400, ValidationBody(RuleErrors(name, email, isEmail)))))
  {
  }

  /** When both rules fail, the span message lists both, name first. */
  lemma BothRulesFailMessage(s: Span, url: string, email: string)
    ensures Gate(Some(s), url, RuleErrors("", email, false), None).span.value.status ==
      StatusError(FailedPrefix + (NameRequired + ", " + EmailRequired))
  {
    var errs := RuleErrors("", email, false);
    assert errs == [FieldError("name", NameRequired), FieldError("email", EmailRequired)];
    assert Messages(errs) == [NameRequired, EmailRequired];
    assert Join([EmailRequired], ", ") == EmailRequired;
    assert Join(Messages(errs), ", ") == NameRequired + ", " + EmailRequired;
  }
}
